=== FILE: README.md ===
# A layered neural network, modelled in Dafny

This project models the core of a small C# neural network. The network is a
strictly layered directed graph:

- an input layer, `layerCount` hidden layers of `nodesPerLayer` nodes each,
  and an output layer;
- every node of a layer is joined to every node of the next layer by one
  weighted `Connection`;
- each node has a bias and an activation.

The modelled operations are:

- `Network.Generate`, `GenerateLayer` and `GenerateNode` build the network.
- `Node.Connect` adds one edge.
- `Node.Activate`, `Layer.ActivateNodes` and `Network.Run` run the forward pass.
- `Node.Mutate` overwrites one bias or one weight.
- `GetOutput` and `TestFitness` report the result.
- `InitializeWeightOrBias` and `LeakyRelu` are the scalar helpers under all of the above.

How the model represents the program:

- **State is immutable.** Every operation is a pure function that takes a
  `Network` and returns the updated one.
- **Edges live in one place.** The C# `Connection` objects are shared
  between the source's out-list and the target's in-list. Here they live once,
  in `Network.edges`, and nodes hold indices into that sequence. A weight that
  `Mutate` overwrites through a node's out-list is therefore visibly the weight
  its target reads in `Activate`.
- **Lists hold ids.** Layers and the input and output lists hold node ids,
  looked up in the `nodes` map just as the C# code looks nodes up in
  `Network.Nodes`.
- **Failures are values.** The exceptions on the modelled paths are
  `Result` values: a missing dictionary key is `KeyNotFound`, and a list index
  out of range is `ArgumentOutOfRange`.
- **Randomness is an explicit stream.** The shared `System.Random` is a
  stream of doubles in [0, 1), the `Rng` datatype. Each zero-valued
  `InitializeWeightOrBias` call consumes exactly two draws.
  - Node ids (`new Random().Next()`) come from a caller-supplied list of
    distinct ids.
  - The two random choices of `Node.Mutate` are a `Mutation` argument.
- **`float` is `real`.** `Math.Round(x, 3)` is computed exactly on reals.
  A value half-way between two thousandths rounds to the even neighbour,
  which is the .NET default.

Modules, one per file:

| file | module | contents |
|---|---|---|
| rounding.dfy | Rounding | `Math.Round(x, 3)` on reals |
| utils.dfy | Utils | the random stream, `InitializeWeightOrBias`, `LeakyRelu` |
| graph.dfy | Graph | the data model and the connection-consistency invariant |
| node.dfy | Nodes | `Node`: constructors, `Connect`, `Activate`, `Mutate` |
| network.dfy | Networks | `ActivateNodes`, `Run`, `GetOutput`, `TestFitness` |
| forward.dfy | Forward | the layer-indexed definition of the forward pass, and `Run` proved equal to it |
| wiring.dfy | Wiring | the loop connecting every node of a layer to a new node |
| layering.dfy | Layering | the generated shape and its consequences: edges go forward, one edge per pair, no cycles |
| construction.dfy | Construction | the invariant kept while a network is built layer by layer |
| generate.dfy | Generation | `Generate`, `GenerateLayer`, and the properties of what they build |

Details of the code the model keeps that a reader might not expect:

- `LeakyRelu` tests the rounded value, and does not round again after
  scaling a non-positive value by 0.1.
- `Mutate` casts the random edge index to `byte`, so only the first 256
  out-edges can be mutated.
- `TestFitness` is zero exactly when the output lies within half a
  thousandth of the target. It equals "output equals target" only for
  targets that are whole thousandths.

## Model

| member | source | states |
|---|---|---|
| Rounding.Round3 | Program.cs:75 | rounding to three decimals always lands on a whole number of thousandths, at most half a thousandth from the input |
| Rounding.RoundNearest | Program.cs:82 | no whole number of thousandths lies closer to the input than the rounded value |
| Rounding.RoundHalfToEven | Program.cs:246 | a value exactly half-way between two thousandths goes to the neighbour with an even number of thousandths, the .NET default |
| Rounding.RoundFixesThousandths | Program.cs:252 | a value already given in thousandths is left as it is |
| Rounding.RoundPositiveIff | Program.cs:82-83 | the rounded value is positive exactly when the input exceeds half a thousandth |
| Rounding.RoundNegativeIff | Program.cs:82-84 | the rounded value is negative exactly when the input is below minus half a thousandth |
| Rounding.RoundUnitDraw | Program.cs:72-75 | a draw in [0, 1) rounds to a value in [0, 1] |
| Rounding.RoundMonotone | Program.cs:82 | rounding never reverses the order of two values |
| Rounding.RoundOdd | Program.cs:74-75 | negating before rounding gives the negation of the rounded value, so the sign flip and the rounding commute |
| Utils.InitializeWeightOrBias | Program.cs:64-77 | a nonzero value comes back unchanged and nothing is drawn; zero yields a whole number of thousandths in [-1, 1]: the rounded first draw, negated exactly when the second draw exceeds 0.75, with exactly two draws consumed |
| Utils.LeakyRelu | Program.cs:80-85 | the result is positive exactly when the input exceeds half a thousandth, and then it is the rounded input; otherwise ten times the result is the rounded input; so LeakyRelu(0) is 0 |
| Utils.LeakyReluMonotone | Program.cs:80-85 | the activation function is monotone |
| Nodes.NewConnection | Node.cs:41-48 | a connection joins the given endpoints; its weight and the stream after it are those InitializeWeightOrBias gives for the weight argument, so a zero weight becomes a draw in [-1, 1] using two draws |
| Nodes.NewInputNode | Program.cs:262-267 | an input node goes through the constructor that keeps the bias as given, without a draw; it has the input value as its activation and no edges |
| Nodes.NewOutputNode | Program.cs:278 | an output node is a serialization-constructor node with a zero bias: activation 0, no edges, and the bias InitializeWeightOrBias(0) draws, using two draws |
| Nodes.NewNode | Node.cs:57-66 | a node from the serialization constructor has its id, activation 0, no edges, and its bias and the stream after it are those InitializeWeightOrBias gives for the bias argument: kept when nonzero, drawn in [-1, 1] with two draws when zero |
| Nodes.Connect | Node.cs:99-110 | one new edge from a to b is appended to the edges, to a's out-list and to b's in-list; every other node, id, bias and activation is unchanged; the weight goes through InitializeWeightOrBias twice, once in Connect and once in the Connection constructor, and the returned stream is the one after both; consistency is preserved |
| Nodes.InputSum | Node.cs:118-122 | the accumulation loop succeeds exactly when every in-edge's source is a node, and otherwise fails with KeyNotFound on a missing id |
| Nodes.InputSumIsDot | Node.cs:115-122 | when every source exists, the loop computes the weighted sum of source activations over the in-list |
| Nodes.Activate | Node.cs:113-125 | activation succeeds exactly when every source exists; it sets this node's activation to LeakyRelu(weighted input + bias) and changes nothing else |
| Nodes.ActivateWithoutInputs | Node.cs:113-125 | a node without in-edges, such as any input node, activates to LeakyRelu(bias) |
| Nodes.MutatedPosition | Node.cs:144 | the byte cast of the random edge index stays below 256 and leaves indices below 256 as they are |
| Nodes.Mutate | Node.cs:127-149 | the bias branch replaces only the bias, with the value InitializeWeightOrBias(0) draws; the weight branch replaces only the weight of the out-edge at the byte-cast index, with that same drawn value, and fails exactly when the node has no out-edges; the topology never changes |
| Nodes.MutateReachesOnlyFirst256 | Node.cs:142-148 | an out-edge at position 256 or later that is not also among the first 256 keeps its weight |
| Nodes.MutatedEdgeIsSharedWithTarget | Node.cs:144-147 | the edge mutated through the out-list starts at the node and is listed in its target's in-list |
| Nodes.MutateKeepsConsistent | Node.cs:127-149 | mutation keeps the connection-consistency invariant |
| Networks.ActivateNodes | Program.cs:218-224 | activating a layer succeeds exactly when every source read by its nodes exists; it changes activations only, and only those of the listed nodes |
| Networks.RunFrom | Program.cs:191-198 | the layer loop from layer j succeeds exactly when every source read by layers j onwards exists, and changes activations only |
| Networks.Run | Program.cs:191-198 | the forward pass succeeds exactly when every source read by a layer node exists, fails only with KeyNotFound on a missing id, and changes activations only |
| Networks.ActivationSum | Program.cs:240-245 | the sum over one output node is its activation, and non-negative activations sum to a non-negative total |
| Networks.ActivationSumAppend | Program.cs:242-245 | summing a list in order is summing its first part and then the rest |
| Networks.GetOutput | Program.cs:238-247 | the output is a whole number of thousandths within half a thousandth of the sum of output activations, and 0 without output nodes |
| Networks.TestFitness | Program.cs:249-253 | the fitness is the absolute difference between target and output rounded to three decimals (Round3), hence a non-negative whole number of thousandths within half a thousandth of the absolute error; it is zero exactly when the output is within half a thousandth of the target, and for a target given in thousandths exactly when the two are equal |
| Networks.TestFitnessSymmetric | Program.cs:249-253 | the fitness is the same whether the target lies above or below the output by a given amount |
| Forward.ActivateNodesComputes | Program.cs:218-224 | activating a layer in list order gives each of its nodes the value the layer-indexed definition gives, when earlier layers are done |
| Forward.RunFromComputes | Program.cs:191-198 | running from layer j on, with earlier layers done, leaves every layer done |
| Forward.RunMatchesLayerActs | Program.cs:191-198 | on a layered network Run succeeds, changes activations only, and leaves every layer node with the activation of the recursive definition in which layer j depends only on layer j - 1 |
| Forward.RunOverwritesInputs | Program.cs:191-198 | after Run a first-layer node holds LeakyRelu(bias), not the input value 1 set at construction |
| Wiring.ConnectFrom | Program.cs:165-168 | connecting every node of a layer to a new node appends one edge per source, in layer order, all ending at the new node with weights in [-1, 1], and touches no other in-list, no out-list outside the sources, and no id, bias or activation; the new weights are, in order, the ones the successive `Connect` calls draw from the stream (after the two draws of each thrown-away connection on the output layer), and the stream returned is the one after the last of them; consistency is preserved |
| Wiring.ConnectDraw | Node.cs:99-103 | a zero-weight `Connect` gives its edge the value `InitializeWeightOrBias` draws for it (two draws), unless that value is zero, in which case the `Connection` constructor draws again from the stream that follows; the weight lies in [-1, 1] |
| Wiring.WireDraw | Program.cs:143-146 | one wiring step of the output loop first skips the two draws of the thrown-away connection and then draws as `Connect` does; a step of the hidden-layer loop draws as `Connect` does |
| Wiring.DrawnWeightsUnique | Program.cs:165-168 | the stream determines the wiring: two wirings of equally many edges from the same stream have the same weights and leave the same stream |
| Layering.EdgeGoesForward | Program.cs:143-146 | in a generated network every edge goes from a node of some layer to a node of the next |
| Layering.EdgeForEachPair | Program.cs:165-168 | every node of a layer is joined to every node of the next layer |
| Layering.EdgeUniquePerPair | Program.cs:143-146 | no two edges join the same pair of nodes |
| Layering.PathRaisesLayer | Program.cs:143-146 | a walk of n edges climbs exactly n layers |
| Layering.NoCycles | Program.cs:115-154 | the generated graph is acyclic |
| Construction.CloseLayer | Program.cs:174-177 | appending the pending nodes as a new last layer, under any layer number, leaves a generated network with nothing pending: consistent, layered, fully wired, weights and biases in [-1, 1] |
| Generation.AddInputs | Program.cs:118-124 | the input loop appends the ids to the input list and adds them as nodes, leaves edges, outputs and layers alone, and uses two draws per node |
| Generation.AddInputsNodes | Program.cs:118-124 | the k-th input node has activation 1 and the bias drawn by the k-th pair of draws |
| Generation.AddWired | Program.cs:140-168 | one generated node adds exactly its id as a node and one edge per source. The new node has its id, activation 0, no out-edges, the new edges as its in-edges, and the bias `InitializeWeightOrBias` draws from a zero bias; on the output loop it is exactly the node `new OutputNode(...)` makes. The edge weights are those the wiring steps draw from the stream that follows the bias draw. Every other node keeps its bias and activation, and the input and output lists and the layers are unchanged |
| Generation.AddWiredEdges | Program.cs:164-168 | one generated node appends one edge per source, in order, each from that source to the new node, and keeps the earlier edges in place |
| Generation.AddWiredNodes | Program.cs:160-171 | the node loop leaves the input and output lists and the layers alone |
| Generation.AddWiredNodesPrefix | Program.cs:160-171 | the node loop only appends edges: the earlier edges keep their positions |
| Generation.AddWiredNodesEnds | Program.cs:160-168 | the node loop wires row by row: past the old edges, k full rows of one edge per source and then s more edges lead to the edge from the s-th source to the k-th new node |
| Generation.AddWiredNodesKeys | Program.cs:160-171 | the node loop adds exactly the given ids as nodes |
| Generation.AddWiredNodesEdges | Program.cs:160-171 | the node loop adds one edge per new node and source |
| Generation.GenerateLayer | Program.cs:156-178 | GenerateLayer fails exactly when there is a node to make and the layer index is out of range; otherwise it appends a layer numbered one past the current count, holding the new ids |
| Generation.GenerateLayerAdds | Program.cs:156-178 | a successful GenerateLayer adds exactly its ids as nodes, keeps every layer resolving, and adds nodeCount times the source layer's size in edges, or none for a non-positive count |
| Generation.GenerateLayerKeys | Program.cs:156-178 | a successful GenerateLayer adds exactly its ids as nodes, and every layer still resolves |
| Generation.GenerateLayerEdges | Program.cs:160-168 | a successful GenerateLayer adds nodeCount times the source layer's size in edges, and none for a non-positive count |
| Generation.GenerateLayerWires | Program.cs:160-168 | with the layer index in range, GenerateLayer succeeds and the edge at position k times the source layer's size plus s past the old edges goes from the s-th node of the source layer to the k-th new node |
| Generation.GenerateLayerBuilds | Program.cs:156-178 | GenerateLayer from the last layer succeeds and keeps the network generated: the new layer is fully wired from the old last one |
| Generation.GenerateHidden | Program.cs:130-134 | the hidden loop appends one layer per iteration, numbered in sequence, and leaves the input and output lists alone |
| Generation.GenerateHiddenKeys | Program.cs:130-134 | the hidden loop adds exactly the given ids as nodes |
| Generation.GenerateHiddenBuilds | Program.cs:130-134 | the hidden loop keeps the network generated |
| Generation.WireOutputs | Program.cs:137-150 | the output wiring fails exactly when, as written, some output index passes the end of a non-empty previous layer |
| Generation.WireOutputsAsNodes | Program.cs:143-147 | once past its index checks, the output wiring is the node loop of GenerateLayer plus one discarded connection per edge |
| Generation.AddOutputs | Program.cs:137-150 | the output loop fails exactly when it is indexed as written and there are more outputs than the non-empty previous layer has nodes; otherwise it appends the ids to the output list |
| Generation.AddOutputsAdds | Program.cs:137-150 | a successful output loop adds exactly its ids as nodes and one edge per output node and source |
| Generation.AddOutputsBuilds | Program.cs:137-150 | the output loop wired from the last layer keeps the construction invariant, with the outputs pending |
| Generation.InputLayer | Program.cs:118-128 | on a fresh network the input loop and the input layer give a layer numbered 1 holding exactly the input ids |
| Generation.InputLayerBuilds | Program.cs:118-128 | the input layer on its own is a generated network |
| Generation.GenerateFront | Program.cs:115-134 | the input loop, the input layer and the hidden loop leave the inputs listed, no outputs, and the input layer followed by the hidden layers |
| Generation.GenerateNetwork | Program.cs:115-154 | Generate fails exactly when there are outputs and either layerCount is negative or, as written, the previous layer is non-empty and narrower than the output count; otherwise the layers are the input layer, the hidden layers and the output layer numbered layerCount + 2 |
| Generation.Generate | Program.cs:115-154 | Generate as written fails exactly when there are outputs and layerCount is negative, or the previous layer is non-empty and narrower than the output count |
| Generation.GenerateCorrected | Program.cs:137-147 | with the discarded connection indexed by the node being connected, Generate fails exactly when there are outputs and layerCount is negative |
| Generation.GenerateBuilds | Program.cs:115-154 | what Generate builds is consistent, strictly layered and fully wired, with every bias and weight in [-1, 1] and exactly the edges that full wiring between consecutive layers needs |
| Generation.GenerateKeys | Program.cs:115-154 | what Generate builds has exactly the supplied ids as nodes |
| Generation.GenerateShape | Program.cs:115-154 | Generate builds in + L·k + out nodes (negative counts read as zero), lists of sizes in and out, and L + 2 layers numbered 1, 2, ..., L + 1 and layerCount + 2, the first holding the inputs and the last the outputs |
| Generation.GenerateEdgeCount | Program.cs:115-154 | what Generate builds has exactly the sum of products of consecutive layer sizes in edges |
| Generation.GenerateExample | Program.cs:115-154 | Generate(2, 1, 3, 1) succeeds with 6 nodes, 3 layers and 2·3 + 3·1 = 9 edges |
| Generation.OutputIndexCounterexample | Program.cs:143-145 | Generate(1, 1, 1, 2) fails as written and succeeds once corrected |
| Generation.GenerateCorrectedBuilds | Program.cs:115-154 | the corrected Generate succeeds whenever layerCount is non-negative or there are no outputs, and builds a generated network |

## Left out

- `Utils.Serializer` (`SaveNetwork`, `LoadNetwork`): file I/O and JSON reference handling, outside the modelled core.
- `Program.Main`: the entry point, which only loads, runs, prints and saves a network.
- `DisplayNodes`, `Layer.ListNodes`, `Node.DisplayInfo`, `Connection.Info` and the `WriteLine` calls in `Node.Mutate`: console output only.
- `Network.Mutate`: an empty method with no behaviour to model.
- `InputNode.GetOutput` and `OutputNode.OutputValue`: never read by the modelled code.
- `System.Random`: the draws are an explicit stream, node ids a caller-supplied list, and the choices of `Node.Mutate` an explicit `Mutation` value.
- Id collisions: the supplied ids are distinct and fresh, so the `Dictionary.Add` duplicate-key exception is not modelled.
- Single-precision `float` arithmetic: values are exact reals, so representation and accumulation error are not modelled.
- The discarded `Connection` in the output loop: only its index check and its two draws are modelled.
- Node order: `GenerateLayer` and the output loop add each node to the map before wiring it, and the output loop appends the output list after all outputs are wired. The C# order differs, but neither the dictionary nor the wiring reads what is reordered, so the result is the same.
- State after an exception: a failing call returns an error and no partial network.
- `Generate` is modelled on a freshly constructed network only; calling it twice on the same network is not modelled.
- Generation.AddWiredNodes: the random stream after wiring is not characterised beyond being threaded through, since no property depends on the exact number of draws consumed; its edges are described by the lemmas about it.
- The `Node(bias, network)` constructor appears only through `NewInputNode`, the only caller in the core.

## Findings

| source | as written | input that shows it | evidently intended | confidence | as-written member | corrected member |
|---|---|---|---|---|---|---|
| Program.cs:145 | the discarded connection of the output loop reads `Layers[layerCount].Nodes[i]`, indexing the previous layer with the output node's index `i` | `Generate(1, 1, 1, 2)`: the hidden layer has one node, and output 1 reads index 1 of it | the connection starts at `node`, the node being connected, so any number of outputs works | high; not executed | Generation.Generate, Generation.OutputIndexCounterexample | Generation.GenerateCorrected, Generation.GenerateCorrectedBuilds |

=== FILE: construction.dfy ===
/**
  The invariant `Network.Generate` keeps while it builds the network layer by
  layer: the finished layers have the generated shape, and the nodes of the
  layer under construction are each wired from every node of the last
  finished layer.
 */
module Construction {
  import opened Graph
  import opened Layering
  import opened Wiring

  /** The nodes a new node is wired from: those of the last layer, or none before the first layer. */
  function LastLayer(layers: seq<Layer>): (s: seq<Id>)
    ensures |layers| > 0 ==> s == layers[|layers| - 1].nodes
    ensures |layers| == 0 ==> s == []
  {
    if |layers| == 0 then [] else layers[|layers| - 1].nodes
  }

  /**
    The nodes of the layer under construction: no repeats, in the network but
    in no finished layer, with no out-edges yet and with one in-edge from
    each node of the last finished layer, in that layer's order.
   */
  ghost predicate Pending(net: Network, pending: seq<Id>)
    requires WellIndexed(net)
  {
    && NoDup(pending)
    && (forall k | 0 <= k < |pending| ::
          && pending[k] in net.nodes
          && pending[k] !in LayerIds(net.layers)
          && net.nodes[pending[k]].outs == []
          && Sources(net.edges, net.nodes[pending[k]].ins) == LastLayer(net.layers))
  }

  /**
    A network in the middle of `Generate`: the finished layers have the
    generated shape, the nodes are those of the finished layers and the
    pending ones, and the edges are exactly the full wiring between them.
   */
  ghost predicate Building(net: Network, pending: seq<Id>) {
    && Consistent(net)
    && Layered(net)
    && FullyConnected(net)
    && Bounded(net)
    && Pending(net, pending)
    && net.nodes.Keys == LayerIds(net.layers) + Members(pending)
    && |net.edges| == EdgeTotal(net.layers) + |pending| * |LastLayer(net.layers)|
  }

  /** With nothing pending, the network under construction is a generated one. */
  lemma BuildingDone(net: Network)
    requires Building(net, [])
    ensures Generated(net) && Bounded(net) && |net.edges| == EdgeTotal(net.layers)
  {
  }

  /** The empty network is a network under construction with nothing pending. */
  lemma BuildingEmpty()
    ensures Building(EmptyNetwork(), [])
  {
    assert LayerIds([]) == {};
  }

  /** Every node of the last layer is a layer node. */
  lemma LastLayerIds(layers: seq<Layer>)
    ensures forall x | x in LastLayer(layers) :: x in LayerIds(layers)
  {
    if |layers| > 0 {
      forall x | x in LastLayer(layers)
        ensures x in LayerIds(layers)
      {
        var k :| 0 <= k < |layers[|layers| - 1].nodes| && layers[|layers| - 1].nodes[k] == x;
      }
    }
  }

  /** Extending the edge sequence leaves the sources of edges already there as they were. */
  lemma SourcesOfPrefix(edges: seq<Connection>, longer: seq<Connection>, list: seq<nat>)
    requires |edges| <= |longer| && longer[..|edges|] == edges
    requires forall i | 0 <= i < |list| :: list[i] < |edges|
    ensures Sources(longer, list) == Sources(edges, list)
  {
    forall i | 0 <= i < |list|
      ensures longer[list[i]] == edges[list[i]]
    {
      assert longer[list[i]] == longer[..|edges|][list[i]];
    }
  }

  /**
    Adding nodes and appending edges, without touching the layers or the
    in-lists of layer nodes, keeps the layered, fully wired shape.
   */
  lemma GrowKeepsShape(net: Network, n: Network)
    requires Layered(net) && FullyConnected(net) && WellIndexed(n)
    requires n.layers == net.layers && net.nodes.Keys <= n.nodes.Keys
    requires |net.edges| <= |n.edges| && n.edges[..|net.edges|] == net.edges
    requires forall j, k | 0 <= j < |net.layers| && 0 <= k < |net.layers[j].nodes| ::
      n.nodes[net.layers[j].nodes[k]].ins == net.nodes[net.layers[j].nodes[k]].ins
    ensures Layered(n) && FullyConnected(n)
  {
    assert LayersResolve(n);
    forall j, k | 0 <= j < |net.layers| && 0 <= k < |net.layers[j].nodes|
      ensures Sources(n.edges, n.nodes[net.layers[j].nodes[k]].ins) == Sources(net.edges, net.nodes[net.layers[j].nodes[k]].ins)
    {
      var x := net.layers[j].nodes[k];
      SourcesOfPrefix(net.edges, n.edges, net.nodes[x].ins);
    }
    assert FullyConnected(n);
    forall j, k, i |
      && 0 <= j < |n.layers| && 0 <= k < |n.layers[j].nodes|
      && 0 <= i < |n.nodes[n.layers[j].nodes[k]].ins|
      ensures j > 0 && n.edges[n.nodes[n.layers[j].nodes[k]].ins[i]].from in n.layers[j - 1].nodes
    {
      var e := net.nodes[net.layers[j].nodes[k]].ins[i];
      assert n.edges[e] == n.edges[..|net.edges|][e];
    }
  }

  /** Inserting a node that has no edges into a consistent network keeps it consistent. */
  lemma InsertKeepsConsistent(net: Network, node: Node)
    requires Consistent(net) && node.id !in net.nodes && node.outs == [] && node.ins == []
    ensures Consistent(net.(nodes := net.nodes[node.id := node]))
  {
  }

  /**
    One step of a layer under construction: a fresh node with no edges is
    inserted and then wired from every node of the last finished layer; it
    joins the pending nodes.
   */
  lemma AddNodeKeeps(net: Network, pending: seq<Id>, node: Node, n: Network)
    requires Building(net, pending)
    requires node.id !in net.nodes && node.outs == [] && node.ins == [] && -1.0 <= node.bias <= 1.0
    requires Wired(net.(nodes := net.nodes[node.id := node]), n, LastLayer(net.layers), node.id)
    requires Consistent(n)
    ensures Building(n, pending + [node.id])
  {
    var id := node.id;
    var net1 := net.(nodes := net.nodes[id := node]);
    var sources := LastLayer(net.layers);
    LastLayerIds(net.layers);
    assert Bounded(net1);
    WiredKeepsBounded(net1, n, sources, id);
    assert forall j, k | 0 <= j < |net.layers| && 0 <= k < |net.layers[j].nodes| :: net.layers[j].nodes[k] != id by {
      assert LayerIds(net.layers) <= net.nodes.Keys;
    }
    GrowKeepsShape(net, n);
    AddNodePending(net, pending, node, n);
    OneMoreRow(|pending|, |sources|);
  }

  /** The pending part of `AddNodeKeeps`. */
  lemma AddNodePending(net: Network, pending: seq<Id>, node: Node, n: Network)
    requires WellIndexed(net) && Pending(net, pending) && WellIndexed(n)
    requires net.nodes.Keys == LayerIds(net.layers) + Members(pending)
    requires node.id !in net.nodes && node.outs == [] && node.ins == []
    requires Wired(net.(nodes := net.nodes[node.id := node]), n, LastLayer(net.layers), node.id)
    ensures Pending(n, pending + [node.id])
    ensures n.nodes.Keys == LayerIds(n.layers) + Members(pending + [node.id])
  {
    var id := node.id;
    var sources := LastLayer(net.layers);
    var ps := pending + [id];
    LastLayerIds(net.layers);
    forall k | 0 <= k < |pending|
      ensures && n.nodes[pending[k]].outs == []
              && Sources(n.edges, n.nodes[pending[k]].ins) == LastLayer(n.layers)
    {
      var x := pending[k];
      assert x !in sources;
      SourcesOfPrefix(net.edges, n.edges, net.nodes[x].ins);
    }
    assert Sources(n.edges, n.nodes[id].ins) == sources by {
      assert n.nodes[id].ins == Range(|net.edges|, |sources|);
    }
    MembersSnoc(pending, id);
  }

  /** The members of a list with one more element at its end. */
  lemma MembersSnoc(s: seq<Id>, x: Id)
    ensures Members(s + [x]) == Members(s) + {x}
  {
    MembersAppend(s, [x]);
    assert Members([x]) == {x};
  }

  /** The ids of the layers with one more layer at the end. */
  lemma LayerIdsSnoc(layers: seq<Layer>, last: Layer)
    ensures LayerIds(layers + [last]) == LayerIds(layers) + Members(last.nodes)
  {
    var all := layers + [last];
    forall x | x in LayerIds(all)
      ensures x in LayerIds(layers) || x in last.nodes
    {
      var j, k :| 0 <= j < |all| && 0 <= k < |all[j].nodes| && all[j].nodes[k] == x;
      if j < |layers| {
        assert layers[j].nodes[k] == x;
      }
    }
    forall x | x in LayerIds(layers)
      ensures x in LayerIds(all)
    {
      var j, k :| 0 <= j < |layers| && 0 <= k < |layers[j].nodes| && layers[j].nodes[k] == x;
      assert all[j].nodes[k] == x;
    }
    forall x | x in last.nodes
      ensures x in LayerIds(all)
    {
      var k :| 0 <= k < |last.nodes| && last.nodes[k] == x;
      assert all[|layers|].nodes[k] == x;
    }
  }

  /** The layer index of a node after one more layer is appended. */
  lemma LayerIndexSnoc(layers: seq<Layer>, last: Layer, x: Id)
    ensures x in last.nodes ==> LayerIndex(layers + [last], x) == |layers|
    ensures x !in last.nodes ==> LayerIndex(layers + [last], x) == LayerIndex(layers, x)
  {
    assert (layers + [last])[..|layers|] == layers;
  }

  /** Appending a layer of new nodes, none repeated, keeps the layers disjoint. */
  lemma DisjointSnoc(layers: seq<Layer>, last: Layer)
    requires DisjointLayers(layers) && NoDup(last.nodes)
    requires forall k | 0 <= k < |last.nodes| :: last.nodes[k] !in LayerIds(layers)
    ensures DisjointLayers(layers + [last])
  {
    var all := layers + [last];
    forall j, k | 0 <= j < |all| && 0 <= k < |all[j].nodes|
      ensures && LayerIndex(all, all[j].nodes[k]) == j
              && all[j].nodes[k] !in all[j].nodes[..k]
    {
      var x := all[j].nodes[k];
      LayerIndexSnoc(layers, last, x);
      if j < |layers| {
        assert x in LayerIds(layers);
      } else {
        assert forall a | 0 <= a < k :: last.nodes[..k][a] == last.nodes[a];
      }
    }
  }

  /** Appending a layer adds the full wiring from the previous last layer to it. */
  lemma EdgeTotalSnoc(layers: seq<Layer>, last: Layer)
    ensures EdgeTotal(layers + [last]) == EdgeTotal(layers) + |LastLayer(layers)| * |last.nodes|
  {
    assert (layers + [last])[..|layers|] == layers;
  }

  /**
    Closing the layer under construction: its pending nodes become a new
    last layer, and nothing is pending any more.
   */
  lemma CloseLayer(net: Network, pending: seq<Id>, number: int)
    requires Building(net, pending)
    ensures Building(net.(layers := net.layers + [Layer(number, pending)]), [])
  {
    var last := Layer(number, pending);
    var n := net.(layers := net.layers + [last]);
    ConsistentOnNodesAndEdges(net, n);
    DisjointSnoc(net.layers, last);
    CloseLayerShape(net, pending, number);
    LayerIdsSnoc(net.layers, last);
    EdgeTotalSnoc(net.layers, last);
    assert Members([]) == {};
  }

  /** The layered, fully wired part of `CloseLayer`. */
  lemma CloseLayerShape(net: Network, pending: seq<Id>, number: int)
    requires WellIndexed(net) && LayersResolve(net) && FedByPrevious(net) && FullyConnected(net)
    requires Pending(net, pending)
    ensures var n := net.(layers := net.layers + [Layer(number, pending)]);
      && LayersResolve(n) && FedByPrevious(n) && FullyConnected(n)
  {
    var n := net.(layers := net.layers + [Layer(number, pending)]);
    var top := |net.layers|;
    assert LayersResolve(n) by {
      assert forall j | 0 <= j < top :: n.layers[j] == net.layers[j];
    }
    forall j, k | 0 <= j < |n.layers| && 0 <= k < |n.layers[j].nodes|
      ensures var ins := n.nodes[n.layers[j].nodes[k]].ins;
        && (j > 0 ==> Sources(n.edges, ins) == n.layers[j - 1].nodes)
        && (j == 0 ==> ins == [])
    {
      if j < top {
        assert n.layers[j] == net.layers[j];
        if j > 0 {
          assert n.layers[j - 1] == net.layers[j - 1];
        }
        FirstLayerUnfed(net, j, k);
      } else {
        assert n.layers[j].nodes[k] == pending[k];
        if top > 0 {
          assert n.layers[j - 1] == net.layers[top - 1];
        }
      }
    }
    forall j, k, i | 0 <= j < |n.layers| && 0 <= k < |n.layers[j].nodes| && 0 <= i < |n.nodes[n.layers[j].nodes[k]].ins|
      ensures j > 0 && n.edges[n.nodes[n.layers[j].nodes[k]].ins[i]].from in n.layers[j - 1].nodes
    {
      var ins := n.nodes[n.layers[j].nodes[k]].ins;
      assert Sources(n.edges, ins)[i] == n.edges[ins[i]].from;
    }
  }

  /** The invariant does not look at the input and output node lists. */
  lemma BuildingIgnoresLists(net: Network, pending: seq<Id>, inputNodes: seq<Id>, outputNodes: seq<Id>)
    requires Building(net, pending)
    ensures Building(net.(inputNodes := inputNodes, outputNodes := outputNodes), pending)
  {
    var n := net.(inputNodes := inputNodes, outputNodes := outputNodes);
    ConsistentOnNodesAndEdges(net, n);
    ShapeOnGraph(net, n);
  }

  /*
    A small fact about arithmetic, with no counterpart in the C# code. It is
    stated separately so that the solver meets the step on its own rather
    than inside a large proof.
   */

  /** `p` rows of `m` edges and then one more row make `p + 1` rows. */
  lemma OneMoreRow(p: nat, m: nat)
    ensures (p + 1) * m == p * m + m
  {
  }
}

=== FILE: forward.dfy ===
/**
  The forward pass, defined layer by layer: the activations of layer `j`
  depend only on the activations of layer `j - 1` and on the biases and
  weights. `Network.Run` computes exactly these on a layered network.
 */
module Forward {
  import opened Utils
  import opened Graph
  import opened Nodes
  import opened Networks
  import opened Layering

  /** The part of `Layered` the forward pass relies on: layers resolve and each is fed by the one before. */
  ghost predicate Fed(net: Network) {
    WellIndexed(net) && LayersResolve(net) && FedByPrevious(net)
  }

  /** What `Fed` says about one member of layer `j`: a first-layer node has no in-edges, any other is fed by layer `j - 1`. */
  lemma LayerMember(net: Network, j: nat, id: Id)
    requires Fed(net) && j < |net.layers| && id in net.layers[j].nodes
    ensures id in net.nodes
    ensures j == 0 ==> net.nodes[id].ins == []
    ensures forall i | 0 <= i < |net.nodes[id].ins| ::
      && net.nodes[id].ins[i] < |net.edges|
      && j > 0
      && net.edges[net.nodes[id].ins[i]].from in net.layers[j - 1].nodes
  {
    var layer := net.layers[j].nodes;
    var k :| 0 <= k < |layer| && layer[k] == id;
    assert id in net.nodes;
    var ins := net.nodes[id].ins;
    forall i | 0 <= i < |ins|
      ensures ins[i] < |net.edges| && j > 0 && net.edges[ins[i]].from in net.layers[j - 1].nodes
    {
      assert net.nodes[layer[k]].ins[i] == ins[i];
    }
    if |ins| > 0 {
      assert net.nodes[layer[k]].ins[0] == ins[0];
      assert j > 0;
    }
  }

  /** The activation `node` gets from the activations `prev` of its sources. */
  ghost function NodeValue(edges: seq<Connection>, node: Node, prev: map<Id, real>): real {
    LeakyRelu(Dot(edges, node.ins, prev) + node.bias)
  }

  /** The activations of the layer before layer `j` (none before the first). */
  ghost function PrevActs(net: Network, j: nat): map<Id, real>
    requires j < |net.layers|
    decreases j, 0
  {
    if j == 0 then map[] else LayerActs(net, j - 1)
  }

  /** The activations of layer `j`, by node id. */
  ghost function LayerActs(net: Network, j: nat): map<Id, real>
    requires j < |net.layers|
    decreases j, 1
  {
    var prev := PrevActs(net, j);
    map id | id in net.layers[j].nodes && id in net.nodes :: NodeValue(net.edges, net.nodes[id], prev)
  }

  /** The value `LayerActs` gives one member of layer `j`. */
  lemma LayerActsAt(net: Network, j: nat, id: Id)
    requires j < |net.layers| && id in net.layers[j].nodes && id in net.nodes
    ensures id in LayerActs(net, j)
    ensures LayerActs(net, j)[id] == NodeValue(net.edges, net.nodes[id], PrevActs(net, j))
  {
  }

  /** Exactly the members of layer `j - 1` carry an activation in `PrevActs`. */
  lemma PrevActsKeys(net: Network, j: nat, id: Id)
    requires LayersResolve(net) && 0 < j < |net.layers|
    ensures id in PrevActs(net, j) <==> id in net.layers[j - 1].nodes
  {
    if id in net.layers[j - 1].nodes {
      var k :| 0 <= k < |net.layers[j - 1].nodes| && net.layers[j - 1].nodes[k] == id;
    }
  }

  /** The weighted input only reads the activations of the sources. */
  lemma {:induction false} DotAgree(edges: seq<Connection>, list: seq<nat>, a: map<Id, real>, b: map<Id, real>)
    requires forall k | 0 <= k < |list| :: list[k] < |edges| && edges[list[k]].from in a && edges[list[k]].from in b
    requires forall k | 0 <= k < |list| :: a[edges[list[k]].from] == b[edges[list[k]].from]
    ensures Dot(edges, list, a) == Dot(edges, list, b)
    decreases |list|
  {
    if |list| > 0 {
      DotAgree(edges, list[1..], a, b);
    }
  }

  /** The activations `cur` holds for the nodes of layer `j` are the specified ones. */
  ghost predicate LayerDone(net: Network, cur: Network, j: nat)
    requires j < |net.layers|
  {
    forall id | id in net.layers[j].nodes ::
      id in cur.nodes && id in LayerActs(net, j) && cur.nodes[id].activation == LayerActs(net, j)[id]
  }

  /** Every source of node `id` is a node whose activation is the one `prev` gives it. */
  ghost predicate SourcesCarry(cur: Network, id: Id, prev: map<Id, real>)
    requires WellIndexed(cur) && id in cur.nodes
  {
    forall k | 0 <= k < |cur.nodes[id].ins| ::
      var from := cur.edges[cur.nodes[id].ins[k]].from;
      from in prev && from in cur.nodes && cur.nodes[from].activation == prev[from]
  }

  /**
    Activating a node whose sources all carry the activations `prev` gives it
    the activation `NodeValue` computes from `prev`.
   */
  lemma ActivateFrom(cur: Network, id: Id, prev: map<Id, real>)
    requires WellIndexed(cur) && id in cur.nodes && SourcesCarry(cur, id, prev)
    ensures Activate(cur, id).Ok?
    ensures Activate(cur, id).value.nodes[id].activation == NodeValue(cur.edges, cur.nodes[id], prev)
  {
    DotAgree(cur.edges, cur.nodes[id].ins, Activations(cur), prev);
  }

  /** Once layer `j - 1` is done, the sources of a node of layer `j` carry their specified activations. */
  lemma PrevCarried(net: Network, cur: Network, j: nat, id: Id)
    requires Fed(net) && SameExceptActivations(net, cur) && j < |net.layers|
    requires id in net.layers[j].nodes
    requires j > 0 ==> LayerDone(net, cur, j - 1)
    ensures WellIndexed(cur) && id in cur.nodes
    ensures SourcesCarry(cur, id, PrevActs(net, j))
  {
    SameExceptActivationsKeepsConsistent(net, cur);
    LayerMember(net, j, id);
    var ins := net.nodes[id].ins;
    assert cur.nodes[id].ins == ins;
    forall k | 0 <= k < |ins|
      ensures var from := cur.edges[ins[k]].from;
        from in PrevActs(net, j) && from in cur.nodes && cur.nodes[from].activation == PrevActs(net, j)[from]
    {
      assert j > 0 && net.edges[ins[k]].from in net.layers[j - 1].nodes;
    }
  }

  /** Activating one node of layer `j` after layer `j - 1` is done gives it its specified activation. */
  lemma ActivateComputes(net: Network, cur: Network, j: nat, id: Id)
    requires Fed(net) && SameExceptActivations(net, cur) && j < |net.layers|
    requires id in net.layers[j].nodes
    requires j > 0 ==> LayerDone(net, cur, j - 1)
    ensures WellIndexed(cur) && id in cur.nodes && id in LayerActs(net, j)
    ensures Activate(cur, id).Ok?
    ensures Activate(cur, id).value.nodes[id].activation == LayerActs(net, j)[id]
  {
    PrevCarried(net, cur, j, id);
    var prev := PrevActs(net, j);
    ActivateFrom(cur, id, prev);
    LayerActsAt(net, j, id);
    NodeValueSame(net.edges, net.nodes[id], cur.nodes[id], prev);
  }

  /** `NodeValue` reads only the in-list and the bias of the node. */
  lemma NodeValueSame(edges: seq<Connection>, a: Node, b: Node, prev: map<Id, real>)
    requires b == a.(activation := b.activation)
    ensures NodeValue(edges, a, prev) == NodeValue(edges, b, prev)
  {
  }

  /** Activating a node outside layer `j - 1` keeps that layer done. */
  lemma ActivateKeepsLayerDone(net: Network, cur: Network, n1: Network, j: nat, id: Id)
    requires Fed(net) && 0 < j < |net.layers|
    requires LayerDone(net, cur, j - 1) && id !in net.layers[j - 1].nodes
    requires n1.nodes.Keys == cur.nodes.Keys
    requires forall x | x in cur.nodes && x != id :: n1.nodes[x] == cur.nodes[x]
    ensures LayerDone(net, n1, j - 1)
  {
  }

  /**
    Activating a list of distinct members of layer `j`, once layer `j - 1` is
    done, gives each its specified activation and leaves every other node as
    it was.
   */
  lemma {:induction false} ActivateNodesComputes(net: Network, cur: Network, j: nat, ids: seq<Id>)
    requires Fed(net) && SameExceptActivations(net, cur) && j < |net.layers|
    requires forall x | x in ids :: x in net.layers[j].nodes
    requires j > 0 ==> forall x | x in ids :: x !in net.layers[j - 1].nodes
    requires NoDup(ids)
    requires j > 0 ==> LayerDone(net, cur, j - 1)
    ensures WellIndexed(cur) && forall k | 0 <= k < |ids| :: ids[k] in cur.nodes
    ensures ActivateNodes(cur, ids).Ok?
    ensures SameExceptActivations(net, ActivateNodes(cur, ids).value)
    ensures forall x | x in ids ::
      x in ActivateNodes(cur, ids).value.nodes && ActivateNodes(cur, ids).value.nodes[x].activation == LayerActs(net, j)[x]
    ensures forall x | x in cur.nodes && x !in ids :: ActivateNodes(cur, ids).value.nodes[x] == cur.nodes[x]
    decreases |ids|
  {
    SameExceptActivationsKeepsConsistent(net, cur);
    assert forall k | 0 <= k < |ids| :: ids[k] in cur.nodes by {
      forall k | 0 <= k < |ids|
        ensures ids[k] in cur.nodes
      {
        LayerMember(net, j, ids[k]);
      }
    }
    if |ids| > 0 {
      var id := ids[0];
      assert id in ids;
      ActivateComputes(net, cur, j, id);
      var n1 := Activate(cur, id).value;
      var rest := ids[1..];
      NoDupTail(ids);
      assert && SameExceptActivations(net, n1)
             && (j > 0 ==> LayerDone(net, n1, j - 1)) by {
        SameExceptActivationsTransitive(net, cur, n1);
        if j > 0 {
          ActivateKeepsLayerDone(net, cur, n1, j, id);
        }
      }
      ActivateNodesComputes(net, n1, j, rest);
      ActivateNodesHead(cur, ids);
    }
  }

  /** Activating the nodes of layer `j` keeps every other layer done. */
  lemma ActivateLayerKeepsDone(net: Network, cur: Network, n1: Network, i: nat, j: nat)
    requires Fed(net) && DisjointLayers(net.layers) && i < |net.layers| && j < |net.layers| && i != j
    requires LayerDone(net, cur, i)
    requires n1.nodes.Keys == cur.nodes.Keys
    requires forall x | x in cur.nodes && x !in net.layers[j].nodes :: n1.nodes[x] == cur.nodes[x]
    ensures LayerDone(net, n1, i)
  {
    LayerApartFrom(net.layers, j, i);
  }

  /** After `RunFrom` from layer `j`, given layers before `j` done, every layer is done. */
  lemma {:induction false} RunFromComputes(net: Network, cur: Network, j: nat)
    requires Fed(net) && DisjointLayers(net.layers) && SameExceptActivations(net, cur) && j <= |net.layers|
    requires forall i | 0 <= i < j :: LayerDone(net, cur, i)
    ensures WellIndexed(cur) && LayersResolve(cur)
    ensures RunFrom(cur, j).Ok?
    ensures SameExceptActivations(net, RunFrom(cur, j).value)
    ensures forall i | 0 <= i < |net.layers| :: LayerDone(net, RunFrom(cur, j).value, i)
    decreases |net.layers| - j
  {
    SameExceptActivationsKeepsConsistent(net, cur);
    if j < |net.layers| {
      var ids := net.layers[j].nodes;
      LayerNoDup(net.layers, j);
      if j > 0 {
        LayerApartFrom(net.layers, j - 1, j);
      }
      ActivateNodesComputes(net, cur, j, ids);
      var n1 := ActivateNodes(cur, ids).value;
      assert forall i | 0 <= i < j + 1 :: LayerDone(net, n1, i) by {
        forall i | 0 <= i < j
          ensures LayerDone(net, n1, i)
        {
          ActivateLayerKeepsDone(net, cur, n1, i, j);
        }
        assert LayerDone(net, n1, j);
      }
      RunFromComputes(net, n1, j + 1);
      RunFromHead(cur, j);
    }
  }

  /**
    On a layered network `Run` succeeds, changes activations only, and leaves
    every layer node with the activation the layer-by-layer definition gives.
   */
  lemma RunMatchesLayerActs(net: Network)
    requires Layered(net)
    ensures Run(net).Ok?
    ensures SameExceptActivations(net, Run(net).value)
    ensures forall j | 0 <= j < |net.layers| :: LayerDone(net, Run(net).value, j)
  {
    RunFromComputes(net, net, 0);
  }

  /**
    `Run` overwrites the input value: a first-layer node ends with the leaky
    ReLU of its bias, whatever activation it started with.
   */
  lemma RunOverwritesInputs(net: Network, id: Id)
    requires Layered(net) && |net.layers| > 0 && id in net.layers[0].nodes
    ensures Run(net).Ok?
    ensures Run(net).value.nodes[id].activation == LeakyRelu(net.nodes[id].bias)
  {
    RunMatchesLayerActs(net);
    assert Fed(net);
    LayerMember(net, 0, id);
    LayerActsAt(net, 0, id);
    assert net.nodes[id].ins == [];
    assert LayerDone(net, Run(net).value, 0);
  }
}

=== FILE: generate.dfy ===
/**
  `Network.Generate`, `Network.GenerateLayer` and `Network.GenerateNode`:
  building a fresh network layer by layer, each new node wired from every
  node of the layer before.

  The ids the C# code takes from `new Random().Next()` come from a supply of
  ids given by the caller, none repeated; the biases and weights come from the
  shared random stream.
 */
module Generation {
  import opened Utils
  import opened Graph
  import opened Nodes
  import opened Layering
  import opened Wiring
  import opened Construction

  /** A loop bound as a C# `for (i = 0; i < n; i++)` sees it: a negative count runs no iterations. */
  function Clamp(n: int): (r: nat)
    ensures n >= 0 ==> r == n
    ensures n < 0 ==> r == 0
  {
    if n < 0 then 0 else n
  }

  /** Ids that can be added to the network: none repeated and none already a node (else `Dictionary.Add` throws). */
  ghost predicate FreshIds(net: Network, ids: seq<Id>) {
    && NoDup(ids)
    && (forall k | 0 <= k < |ids| :: ids[k] !in net.nodes)
  }

  /** Dropping the first id keeps the rest fresh for the network with the first one added. */
  lemma FreshIdsTail(net: Network, ids: seq<Id>, node: Node)
    requires FreshIds(net, ids) && |ids| > 0
    ensures FreshIds(net.(nodes := net.nodes[ids[0] := node]), ids[1..])
    ensures Members(ids) == {ids[0]} + Members(ids[1..])
  {
    NoDupTail(ids);
    assert forall k | 0 <= k < |ids| - 1 :: ids[1..][k] == ids[k + 1];
    assert forall x | x in ids :: x == ids[0] || x in ids[1..];
  }

  /**
    The input loop of `Generate`: for each id a bias is drawn, and an input
    node with activation 1 and that bias is appended to the input nodes and
    added to the network. Exactly two draws are made per node.
   */
  function AddInputs(net: Network, ids: seq<Id>, rng: Rng): (r: (Network, Rng))
    requires FreshIds(net, ids)
    ensures r.0.inputNodes == net.inputNodes + ids
    ensures r.0.nodes.Keys == net.nodes.Keys + Members(ids)
    ensures forall x | x in net.nodes :: r.0.nodes[x] == net.nodes[x]
    ensures r.0.edges == net.edges && r.0.outputNodes == net.outputNodes && r.0.layers == net.layers
    ensures r.1 == rng.Skip(2 * |ids|)
    decreases |ids|
  {
    if |ids| == 0 then
      assert net.inputNodes + ids == net.inputNodes;
      (net, rng)
    else
      var (bias, rng1) := InitializeWeightOrBias(0.0, rng);
      var node := NewInputNode(ids[0], 1.0, bias);
      var net1 := net.(inputNodes := net.inputNodes + [ids[0]], nodes := net.nodes[ids[0] := node]);
      FreshIdsTail(net, ids, node);
      AppendHead(net.inputNodes, ids);
      AddInputs(net1, ids[1..], rng1)
  }

  /** Moving the head of a list to the end of another keeps their concatenation. */
  lemma AppendHead(a: seq<Id>, s: seq<Id>)
    requires |s| > 0
    ensures (a + [s[0]]) + s[1..] == a + s
  {
    assert s == [s[0]] + s[1..];
  }

  /** The `k`-th input node has activation 1 and the bias drawn by the `k`-th pair of draws. */
  lemma {:induction false} AddInputsNodes(net: Network, ids: seq<Id>, rng: Rng, k: nat)
    requires FreshIds(net, ids) && k < |ids|
    ensures AddInputs(net, ids, rng).0.nodes[ids[k]] == NewInputNode(ids[k], 1.0, InitializeWeightOrBias(0.0, rng.Skip(2 * k)).0)
    decreases k
  {
    var (bias, rng1) := InitializeWeightOrBias(0.0, rng);
    var node := NewInputNode(ids[0], 1.0, bias);
    var net1 := net.(inputNodes := net.inputNodes + [ids[0]], nodes := net.nodes[ids[0] := node]);
    FreshIdsTail(net, ids, node);
    if k > 0 {
      AddInputsNodes(net1, ids[1..], rng1, k - 1);
      assert ids[1..][k - 1] == ids[k];
      assert rng1.Skip(2 * (k - 1)) == rng.Skip(2 * k);
    }
  }

  /** Adding one input node before any layer exists keeps the construction invariant; it becomes pending. */
  lemma AddInputKeeps(net: Network, pending: seq<Id>, node: Node)
    requires Building(net, pending) && LastLayer(net.layers) == []
    requires node.id !in net.nodes && node.outs == [] && node.ins == [] && -1.0 <= node.bias <= 1.0
    ensures Building(net.(inputNodes := net.inputNodes + [node.id], nodes := net.nodes[node.id := node]), pending + [node.id])
  {
    var added := net.(nodes := net.nodes[node.id := node]);
    WiredNothing(added, node.id);
    InsertKeepsConsistent(net, node);
    AddNodeKeeps(net, pending, node, added);
    BuildingIgnoresLists(added, pending + [node.id], net.inputNodes + [node.id], net.outputNodes);
  }

  /** Adding the input nodes before any layer exists keeps the construction invariant; they become pending. */
  lemma {:induction false} AddInputsBuilds(net: Network, pending: seq<Id>, ids: seq<Id>, rng: Rng)
    requires Building(net, pending) && LastLayer(net.layers) == [] && FreshIds(net, ids)
    ensures Building(AddInputs(net, ids, rng).0, pending + ids)
    decreases |ids|
  {
    if |ids| == 0 {
      assert pending + ids == pending;
    } else {
      var (bias, rng1) := InitializeWeightOrBias(0.0, rng);
      var node := NewInputNode(ids[0], 1.0, bias);
      var net1 := net.(inputNodes := net.inputNodes + [ids[0]], nodes := net.nodes[ids[0] := node]);
      AddInputKeeps(net, pending, node);
      FreshIdsTail(net, ids, node);
      AddInputsBuilds(net1, pending + [ids[0]], ids[1..], rng1);
      AppendHead(pending, ids);
    }
  }

  /**
    One new node as `GenerateNode` and the output loop of `Generate` make
    it: the bias argument is zero, so a bias is drawn; the node is added to
    the network and every node of `sources` is connected to it, in order.
    With `discarding`, a thrown-away `Connection` (two draws) precedes each
    connection. The model adds the node before wiring it rather than
    after; the resulting network is the same. On the output loop
    (`discarding`) the node is the one `new OutputNode(...)` makes.
   */
  function AddWired(net: Network, sources: seq<Id>, id: Id, discarding: bool, rng: Rng): (r: (Network, Rng))
    requires id !in net.nodes
    requires forall k | 0 <= k < |sources| :: sources[k] in net.nodes
    ensures r.0.nodes.Keys == net.nodes.Keys + {id}
    ensures |r.0.edges| == |net.edges| + |sources|
    ensures r.0.inputNodes == net.inputNodes && r.0.outputNodes == net.outputNodes && r.0.layers == net.layers
    ensures var node := r.0.nodes[id];
      && node.id == id && node.activation == 0.0 && node.outs == []
      && node.bias == InitializeWeightOrBias(0.0, rng).0
      && node.ins == Range(|net.edges|, |sources|)
    ensures discarding ==> r.0.nodes[id] == NewOutputNode(id, rng).0.(ins := Range(|net.edges|, |sources|))
    ensures DrawnWeights(r.0.edges[|net.edges|..], discarding, InitializeWeightOrBias(0.0, rng).1, r.1)
    ensures forall x | x in net.nodes :: r.0.nodes[x].bias == net.nodes[x].bias && r.0.nodes[x].activation == net.nodes[x].activation
  {
    var (node, rng1) := NewNode(id, 0.0, rng);
    var net1 := net.(nodes := net.nodes[id := node]);
    var r := ConnectFrom(net1, sources, id, discarding, rng1);
    AddWiredNode(net, net1, r.0, sources, node);
    r
  }

  /** The node `AddWired` inserts keeps everything but its in-list, which the wiring fills. */
  lemma AddWiredNode(net: Network, net1: Network, n: Network, sources: seq<Id>, node: Node)
    requires node.id !in net.nodes && node.outs == [] && node.ins == []
    requires forall k | 0 <= k < |sources| :: sources[k] in net.nodes
    requires net1 == net.(nodes := net.nodes[node.id := node])
    requires Wired(net1, n, sources, node.id)
    ensures n.nodes[node.id] == node.(ins := Range(|net.edges|, |sources|))
    ensures forall x | x in net.nodes :: n.nodes[x].bias == net.nodes[x].bias && n.nodes[x].activation == net.nodes[x].activation
  {
    assert node.id !in sources;
  }

  /** A new node wired from the last layer keeps the construction invariant; it becomes pending. */
  lemma AddWiredKeeps(net: Network, pending: seq<Id>, id: Id, discarding: bool, rng: Rng)
    requires Building(net, pending) && id !in net.nodes
    ensures forall k | 0 <= k < |LastLayer(net.layers)| :: LastLayer(net.layers)[k] in net.nodes
    ensures Building(AddWired(net, LastLayer(net.layers), id, discarding, rng).0, pending + [id])
  {
    var (node, rng1) := NewNode(id, 0.0, rng);
    var net1 := net.(nodes := net.nodes[id := node]);
    InsertKeepsConsistent(net, node);
    var sources := LastLayer(net.layers);
    LastLayerIds(net.layers);
    AddNodeKeeps(net, pending, node, ConnectFrom(net1, sources, id, discarding, rng1).0);
  }

  /** Once the first id has been added as a node, the rest are still fresh. */
  lemma FreshIdsNext(net: Network, n: Network, ids: seq<Id>)
    requires FreshIds(net, ids) && |ids| > 0
    requires n.nodes.Keys == net.nodes.Keys + {ids[0]}
    ensures FreshIds(n, ids[1..])
    ensures Members(ids) == {ids[0]} + Members(ids[1..])
  {
    FreshIdsTail(net, ids, Node(ids[0], 0.0, 0.0, [], []));
  }

  /**
    One new node per id, each wired from every node of `sources`: the node
    loop of `GenerateLayer` (not `discarding`) and, once its index check is
    passed, the wiring of the output loop of `Generate` (`discarding`).
   */
  function AddWiredNodes(net: Network, sources: seq<Id>, ids: seq<Id>, discarding: bool, rng: Rng): (r: (Network, Rng))
    requires FreshIds(net, ids)
    requires forall k | 0 <= k < |sources| :: sources[k] in net.nodes
    ensures r.0.inputNodes == net.inputNodes && r.0.outputNodes == net.outputNodes && r.0.layers == net.layers
    decreases |ids|
  {
    if |ids| == 0 then (net, rng)
    else
      var step := AddWired(net, sources, ids[0], discarding, rng);
      FreshIdsNext(net, step.0, ids);
      AddWiredNodes(step.0, sources, ids[1..], discarding, step.1)
  }

  /** `AddWiredNodes` adds exactly the given ids as nodes. */
  lemma {:induction false} AddWiredNodesKeys(net: Network, sources: seq<Id>, ids: seq<Id>, discarding: bool, rng: Rng)
    requires FreshIds(net, ids)
    requires forall k | 0 <= k < |sources| :: sources[k] in net.nodes
    ensures AddWiredNodes(net, sources, ids, discarding, rng).0.nodes.Keys == net.nodes.Keys + Members(ids)
    decreases |ids|
  {
    if |ids| > 0 {
      var (net1, rng1) := AddWired(net, sources, ids[0], discarding, rng);
      FreshIdsNext(net, net1, ids);
      AddWiredNodesKeys(net1, sources, ids[1..], discarding, rng1);
      UnionAssoc(net.nodes.Keys, {ids[0]}, Members(ids[1..]));
    } else {
      assert Members(ids) == {};
    }
  }

  /** `n` rows of `m`, added up one row at a time. */
  function Rows(n: nat, m: nat): nat {
    if n == 0 then 0 else Rows(n - 1, m) + m
  }

  lemma {:induction false} RowsProduct(n: nat, m: nat)
    ensures Rows(n, m) == n * m
  {
    if n > 0 {
      RowsProduct(n - 1, m);
      assert n * m == (n - 1) * m + m;
    }
  }

  /** `AddWiredNodes` adds one edge per new node and source, a row of edges per node. */
  lemma {:induction false} AddWiredNodesRows(net: Network, sources: seq<Id>, ids: seq<Id>, discarding: bool, rng: Rng)
    requires FreshIds(net, ids)
    requires forall k | 0 <= k < |sources| :: sources[k] in net.nodes
    ensures |AddWiredNodes(net, sources, ids, discarding, rng).0.edges| == |net.edges| + Rows(|ids|, |sources|)
    decreases |ids|
  {
    if |ids| > 0 {
      var step := AddWired(net, sources, ids[0], discarding, rng);
      FreshIdsNext(net, step.0, ids);
      var rest := AddWiredNodes(step.0, sources, ids[1..], discarding, step.1);
      assert AddWiredNodes(net, sources, ids, discarding, rng) == rest;
      assert |rest.0.edges| == |step.0.edges| + Rows(|ids| - 1, |sources|) by {
        AddWiredNodesRows(step.0, sources, ids[1..], discarding, step.1);
      }
    }
  }

  /** `AddWiredNodes` adds one edge per new node and source. */
  lemma AddWiredNodesEdges(net: Network, sources: seq<Id>, ids: seq<Id>, discarding: bool, rng: Rng)
    requires FreshIds(net, ids)
    requires forall k | 0 <= k < |sources| :: sources[k] in net.nodes
    ensures |AddWiredNodes(net, sources, ids, discarding, rng).0.edges| == |net.edges| + |ids| * |sources|
  {
    AddWiredNodesRows(net, sources, ids, discarding, rng);
    RowsProduct(|ids|, |sources|);
  }

  /** One generated node adds, after the existing edges, one edge from each source to it, in source order. */
  lemma AddWiredEdges(net: Network, sources: seq<Id>, id: Id, discarding: bool, rng: Rng)
    requires id !in net.nodes
    requires forall k | 0 <= k < |sources| :: sources[k] in net.nodes
    ensures NewEdges(net.edges, AddWired(net, sources, id, discarding, rng).0.edges, sources, id)
  {
    var (node, rng1) := NewNode(id, 0.0, rng);
    var net1 := net.(nodes := net.nodes[id := node]);
    assert Wired(net1, ConnectFrom(net1, sources, id, discarding, rng1).0, sources, id);
  }

  /** The node loop only appends edges: the edges there before keep their positions. */
  lemma {:induction false} AddWiredNodesPrefix(net: Network, sources: seq<Id>, ids: seq<Id>, discarding: bool, rng: Rng)
    requires FreshIds(net, ids)
    requires forall k | 0 <= k < |sources| :: sources[k] in net.nodes
    ensures var n := AddWiredNodes(net, sources, ids, discarding, rng).0;
      |net.edges| <= |n.edges| && n.edges[..|net.edges|] == net.edges
    decreases |ids|
  {
    if |ids| > 0 {
      var step := AddWired(net, sources, ids[0], discarding, rng);
      AddWiredNodesStep(net, sources, ids, discarding, rng);
      AddWiredEdges(net, sources, ids[0], discarding, rng);
      AddWiredNodesPrefix(step.0, sources, ids[1..], discarding, step.1);
      PrefixTrans(net.edges, step.0.edges, AddWiredNodes(step.0, sources, ids[1..], discarding, step.1).0.edges);
    } else {
      assert net.edges[..|net.edges|] == net.edges;
    }
  }

  /** Edge `e` exists and goes from `a` to `b`. */
  ghost predicate Joins(edges: seq<Connection>, e: int, a: Id, b: Id) {
    0 <= e < |edges| && edges[e].from == a && edges[e].to == b
  }

  /** An edge added by a wiring step survives later appends. */
  lemma JoinsKept(before: seq<Connection>, mid: seq<Connection>, edges: seq<Connection>, sources: seq<Id>, target: Id, s: nat, e: int)
    requires NewEdges(before, mid, sources, target)
    requires |mid| <= |edges| && edges[..|mid|] == mid
    requires s < |sources| && e == |before| + s
    ensures Joins(edges, e, sources[s], target)
  {
    assert edges[e] == edges[..|mid|][e];
  }

  /** The first iteration of the node loop, unrolled. */
  lemma AddWiredNodesStep(net: Network, sources: seq<Id>, ids: seq<Id>, discarding: bool, rng: Rng)
    requires FreshIds(net, ids) && |ids| > 0
    requires forall i | 0 <= i < |sources| :: sources[i] in net.nodes
    ensures var step := AddWired(net, sources, ids[0], discarding, rng);
      && FreshIds(step.0, ids[1..])
      && AddWiredNodes(net, sources, ids, discarding, rng) == AddWiredNodes(step.0, sources, ids[1..], discarding, step.1)
  {
    var step := AddWired(net, sources, ids[0], discarding, rng);
    FreshIdsNext(net, step.0, ids);
  }

  /** The first new node's row of edges comes first after the old edges. */
  lemma AddWiredNodesFirstRow(net: Network, sources: seq<Id>, ids: seq<Id>, discarding: bool, rng: Rng, s: nat, e: int, target: Id)
    requires FreshIds(net, ids) && |ids| > 0
    requires forall i | 0 <= i < |sources| :: sources[i] in net.nodes
    requires s < |sources| && e == |net.edges| + s && target == ids[0]
    ensures Joins(AddWiredNodes(net, sources, ids, discarding, rng).0.edges, e, sources[s], target)
  {
    var step := AddWired(net, sources, ids[0], discarding, rng);
    AddWiredNodesStep(net, sources, ids, discarding, rng);
    AddWiredEdges(net, sources, ids[0], discarding, rng);
    AddWiredNodesPrefix(step.0, sources, ids[1..], discarding, step.1);
    JoinsKept(net.edges, step.0.edges, AddWiredNodes(step.0, sources, ids[1..], discarding, step.1).0.edges, sources, target, s, e);
  }

  /** Row `k` of the whole loop is row `k - 1` of the loop after its first iteration. */
  lemma AddWiredNodesLater(net: Network, sources: seq<Id>, ids: seq<Id>, discarding: bool, rng: Rng,
                           k: nat, s: nat, e: int, target: Id) returns (net1: Network, rest: seq<Id>, rng1: Rng, k1: nat)
    requires FreshIds(net, ids)
    requires forall i | 0 <= i < |sources| :: sources[i] in net.nodes
    requires 0 < k < |ids| && s < |sources|
    requires e == |net.edges| + Rows(k, |sources|) + s && target == ids[k]
    ensures (net1, rng1) == AddWired(net, sources, ids[0], discarding, rng) && rest == ids[1..] && k1 == k - 1
    ensures FreshIds(net1, rest)
    ensures forall i | 0 <= i < |sources| :: sources[i] in net1.nodes
    ensures k1 < |rest| && rest[k1] == target
    ensures e == |net1.edges| + Rows(k1, |sources|) + s
  {
    net1, rng1 := AddWired(net, sources, ids[0], discarding, rng).0, AddWired(net, sources, ids[0], discarding, rng).1;
    rest, k1 := ids[1..], k - 1;
    RowsNext(k, k1, |sources|);
    TailAt(ids, rest, k, k1);
    FreshIdsNext(net, net1, ids);
  }

  /**
    The node loop wires row by row: the edge from `sources[s]` to `ids[k]`
    sits `k` rows of `|sources|` edges plus `s` after the old edges.
   */
  lemma {:induction false} AddWiredNodesEnds(net: Network, sources: seq<Id>, ids: seq<Id>, discarding: bool, rng: Rng,
                                             k: nat, s: nat, e: int, target: Id)
    requires FreshIds(net, ids)
    requires forall i | 0 <= i < |sources| :: sources[i] in net.nodes
    requires k < |ids| && s < |sources|
    requires e == |net.edges| + Rows(k, |sources|) + s && target == ids[k]
    ensures Joins(AddWiredNodes(net, sources, ids, discarding, rng).0.edges, e, sources[s], target)
    decreases k
  {
    if k == 0 {
      AddWiredNodesFirstRow(net, sources, ids, discarding, rng, s, e, target);
    } else {
      var net1, rest, rng1, k1 := AddWiredNodesLater(net, sources, ids, discarding, rng, k, s, e, target);
      AddWiredNodesEnds(net1, sources, rest, discarding, rng1, k1, s, e, target);
      AddWiredNodesStep(net, sources, ids, discarding, rng);
    }
  }

  /**
    `network.GenerateLayer(nodeCount, layerIndex)`: a new layer of `nodeCount`
    nodes, each wired from every node of `Layers[layerIndex]`, numbered one
    past the current number of layers and appended to them. The index is
    read only when the node loop runs, so it fails exactly when there is at
    least one node to make and `layerIndex` is out of range.
   */
  function GenerateLayer(net: Network, nodeCount: int, layerIndex: int, ids: seq<Id>, rng: Rng): (r: Result<(Network, Rng)>)
    requires |ids| == Clamp(nodeCount) && FreshIds(net, ids) && LayersResolve(net)
    ensures r.Err? <==> nodeCount > 0 && !(0 <= layerIndex < |net.layers|)
    ensures r.Err? ==> r.error == ArgumentOutOfRange
    ensures r.Ok? ==> r.value.0.layers == net.layers + [Layer(|net.layers| + 1, ids)]
    ensures r.Ok? ==> r.value.0.inputNodes == net.inputNodes && r.value.0.outputNodes == net.outputNodes
  {
    if nodeCount > 0 && !(0 <= layerIndex < |net.layers|) then
      Err(ArgumentOutOfRange)
    else
      var sources := if 0 <= layerIndex < |net.layers| then net.layers[layerIndex].nodes else [];
      var (n1, rng1) := AddWiredNodes(net, sources, ids, false, rng);
      Ok((n1.(layers := n1.layers + [Layer(|net.layers| + 1, ids)]), rng1))
  }

  /** Wiring each new node from the last layer keeps the construction invariant; the new nodes become pending. */
  lemma {:induction false} AddWiredNodesBuilds(net: Network, pending: seq<Id>, ids: seq<Id>, discarding: bool, rng: Rng)
    requires Building(net, pending) && FreshIds(net, ids)
    ensures forall k | 0 <= k < |LastLayer(net.layers)| :: LastLayer(net.layers)[k] in net.nodes
    ensures Building(AddWiredNodes(net, LastLayer(net.layers), ids, discarding, rng).0, pending + ids)
    decreases |ids|
  {
    var sources := LastLayer(net.layers);
    LastLayerIds(net.layers);
    if |ids| == 0 {
      assert pending + ids == pending;
    } else {
      var (net1, rng1) := AddWired(net, sources, ids[0], discarding, rng);
      AddWiredKeeps(net, pending, ids[0], discarding, rng);
      FreshIdsNext(net, net1, ids);
      AddWiredNodesBuilds(net1, pending + [ids[0]], ids[1..], discarding, rng1);
      AppendHead(pending, ids);
    }
  }

  /**
    A successful `GenerateLayer` adds exactly the given ids as nodes, all of
    them listed in the new layer, and one edge from each node of layer
    `layerIndex` to each new node.
   */
  lemma GenerateLayerAdds(net: Network, nodeCount: int, layerIndex: int, ids: seq<Id>, rng: Rng)
    requires |ids| == Clamp(nodeCount) && FreshIds(net, ids) && LayersResolve(net)
    requires GenerateLayer(net, nodeCount, layerIndex, ids, rng).Ok?
    ensures var n := GenerateLayer(net, nodeCount, layerIndex, ids, rng).value.0;
      && n.nodes.Keys == net.nodes.Keys + Members(ids)
      && LayersResolve(n)
      && (nodeCount > 0 ==> |n.edges| == |net.edges| + nodeCount * |net.layers[layerIndex].nodes|)
      && (nodeCount <= 0 ==> n.edges == net.edges)
  {
    GenerateLayerKeys(net, nodeCount, layerIndex, ids, rng);
    GenerateLayerEdges(net, nodeCount, layerIndex, ids, rng);
  }

  /** A successful `GenerateLayer` adds exactly the given ids as nodes, all of them listed in the new layer. */
  lemma GenerateLayerKeys(net: Network, nodeCount: int, layerIndex: int, ids: seq<Id>, rng: Rng)
    requires |ids| == Clamp(nodeCount) && FreshIds(net, ids) && LayersResolve(net)
    requires GenerateLayer(net, nodeCount, layerIndex, ids, rng).Ok?
    ensures var n := GenerateLayer(net, nodeCount, layerIndex, ids, rng).value.0;
      n.nodes.Keys == net.nodes.Keys + Members(ids) && LayersResolve(n)
  {
    var sources := if 0 <= layerIndex < |net.layers| then net.layers[layerIndex].nodes else [];
    assert forall k | 0 <= k < |sources| :: sources[k] in net.nodes;
    var wired := AddWiredNodes(net, sources, ids, false, rng).0;
    var n := GenerateLayer(net, nodeCount, layerIndex, ids, rng).value.0;
    assert n.nodes == wired.nodes && n.layers == net.layers + [Layer(|net.layers| + 1, ids)];
    assert wired.nodes.Keys == net.nodes.Keys + Members(ids) by {
      AddWiredNodesKeys(net, sources, ids, false, rng);
    }
    assert forall j | 0 <= j < |net.layers| :: n.layers[j] == net.layers[j];
  }

  /** A successful `GenerateLayer` adds one edge from each node of layer `layerIndex` to each new node. */
  lemma GenerateLayerEdges(net: Network, nodeCount: int, layerIndex: int, ids: seq<Id>, rng: Rng)
    requires |ids| == Clamp(nodeCount) && FreshIds(net, ids) && LayersResolve(net)
    requires GenerateLayer(net, nodeCount, layerIndex, ids, rng).Ok?
    ensures var n := GenerateLayer(net, nodeCount, layerIndex, ids, rng).value.0;
      && (nodeCount > 0 ==> |n.edges| == |net.edges| + nodeCount * |net.layers[layerIndex].nodes|)
      && (nodeCount <= 0 ==> n.edges == net.edges)
  {
    var sources := if 0 <= layerIndex < |net.layers| then net.layers[layerIndex].nodes else [];
    assert forall k | 0 <= k < |sources| :: sources[k] in net.nodes;
    var wired := AddWiredNodes(net, sources, ids, false, rng).0;
    assert GenerateLayer(net, nodeCount, layerIndex, ids, rng).value.0.edges == wired.edges;
    if nodeCount > 0 {
      AddWiredNodesEdges(net, sources, ids, false, rng);
    } else {
      assert ids == [];
    }
  }

  /** With `layerIndex` in range, `GenerateLayer` is the node loop wired from that layer. */
  lemma GenerateLayerLoop(net: Network, nodeCount: int, layerIndex: int, ids: seq<Id>, rng: Rng)
    requires |ids| == Clamp(nodeCount) && FreshIds(net, ids) && LayersResolve(net)
    requires 0 <= layerIndex < |net.layers|
    ensures forall i | 0 <= i < |net.layers[layerIndex].nodes| :: net.layers[layerIndex].nodes[i] in net.nodes
    ensures GenerateLayer(net, nodeCount, layerIndex, ids, rng).Ok?
    ensures GenerateLayer(net, nodeCount, layerIndex, ids, rng).value.0.edges
         == AddWiredNodes(net, net.layers[layerIndex].nodes, ids, false, rng).0.edges
  {
    var sources := net.layers[layerIndex].nodes;
    assert forall i | 0 <= i < |sources| :: sources[i] in net.nodes;
  }

  /**
    With `layerIndex` in range, `GenerateLayer` joins each node of that layer
    to each new node: the edge from the `s`-th source to the `k`-th new node
    is appended at position `k * |source layer| + s` after the old edges.
   */
  lemma GenerateLayerWires(net: Network, nodeCount: int, layerIndex: int, ids: seq<Id>, rng: Rng, k: nat, s: nat)
    requires |ids| == Clamp(nodeCount) && FreshIds(net, ids) && LayersResolve(net)
    requires k < |ids|
    requires 0 <= layerIndex < |net.layers| && s < |net.layers[layerIndex].nodes|
    ensures var src := net.layers[layerIndex].nodes;
      Joins(GenerateLayer(net, nodeCount, layerIndex, ids, rng).value.0.edges, |net.edges| + k * |src| + s, src[s], ids[k])
  {
    GenerateLayerLoop(net, nodeCount, layerIndex, ids, rng);
    var e := RowOffset(|net.edges|, k, |net.layers[layerIndex].nodes|, s);
    AddWiredNodesEnds(net, net.layers[layerIndex].nodes, ids, false, rng, k, s, e, ids[k]);
  }

  /**
    `GenerateLayer` from the last layer, as `Generate` calls it, succeeds and
    keeps the generated shape: the new layer is fully wired from the old last one.
   */
  lemma GenerateLayerBuilds(net: Network, nodeCount: int, last: int, ids: seq<Id>, rng: Rng)
    requires Building(net, []) && last == |net.layers| - 1 >= 0
    requires |ids| == Clamp(nodeCount) && FreshIds(net, ids)
    ensures LayersResolve(net)
    ensures GenerateLayer(net, nodeCount, last, ids, rng).Ok?
    ensures Building(GenerateLayer(net, nodeCount, last, ids, rng).value.0, [])
  {
    var sources := LastLayer(net.layers);
    LastLayerAt(net.layers, last);
    var n1 := GenerateLayerFrom(net, nodeCount, last, ids, rng, sources);
    AddWiredNodesBuilds(net, [], ids, false, rng);
    assert [] + ids == ids;
    CloseLayer(n1, ids, |net.layers| + 1);
  }

  /** `GenerateLayer` with `layerIndex` in range, unrolled: the node loop from `sources`, then the new layer. */
  lemma GenerateLayerFrom(net: Network, nodeCount: int, layerIndex: int, ids: seq<Id>, rng: Rng, sources: seq<Id>) returns (n1: Network)
    requires |ids| == Clamp(nodeCount) && FreshIds(net, ids) && LayersResolve(net)
    requires 0 <= layerIndex < |net.layers| && sources == net.layers[layerIndex].nodes
    ensures forall i | 0 <= i < |sources| :: sources[i] in net.nodes
    ensures n1 == AddWiredNodes(net, sources, ids, false, rng).0
    ensures GenerateLayer(net, nodeCount, layerIndex, ids, rng).Ok?
    ensures GenerateLayer(net, nodeCount, layerIndex, ids, rng).value.0 == n1.(layers := n1.layers + [Layer(|net.layers| + 1, ids)])
  {
    assert forall i | 0 <= i < |sources| :: sources[i] in net.nodes;
    n1 := AddWiredNodes(net, sources, ids, false, rng).0;
  }

  /** The ids of consecutive layers, one list per layer, laid end to end. */
  function Concat(lists: seq<seq<Id>>): seq<Id>
    decreases |lists|
  {
    if |lists| == 0 then [] else lists[0] + Concat(lists[1..])
  }

  /** The parts of a fresh list are fresh, and they share no id. */
  lemma FreshSplit(net: Network, a: seq<Id>, b: seq<Id>)
    requires FreshIds(net, a + b)
    ensures FreshIds(net, a) && FreshIds(net, b)
    ensures forall k | 0 <= k < |b| :: b[k] !in a
  {
    var ab := a + b;
    assert forall k | 0 <= k < |a| :: a[k] == ab[k];
    assert forall k | 0 <= k < |b| :: b[k] == ab[|a| + k];
    forall k | 0 <= k < |b|
      ensures b[k] !in a
    {
      forall i | 0 <= i < |a|
        ensures a[i] != b[k]
      {
        assert ab[i] != ab[|a| + k];
      }
    }
  }

  /** Once the first part of a fresh list has been added as nodes, the second part is still fresh. */
  lemma FreshAfter(net: Network, n: Network, a: seq<Id>, b: seq<Id>)
    requires FreshIds(net, a + b) && n.nodes.Keys == net.nodes.Keys + Members(a)
    ensures FreshIds(n, b)
  {
    FreshSplit(net, a, b);
  }

  /** `layers` with one more layer per list of `ids`, each numbered one past the layers before it. */
  function Grow(layers: seq<Layer>, ids: seq<seq<Id>>): seq<Layer>
    decreases |ids|
  {
    if |ids| == 0 then layers else Grow(layers + [Layer(|layers| + 1, ids[0])], ids[1..])
  }

  /** Growing keeps the layers there are and adds, as layer `|layers| + m`, the `m`-th list numbered `|layers| + m + 1`. */
  lemma {:induction false} GrowAt(layers: seq<Layer>, ids: seq<seq<Id>>)
    ensures |Grow(layers, ids)| == |layers| + |ids|
    ensures forall j | 0 <= j < |layers| :: Grow(layers, ids)[j] == layers[j]
    ensures forall m | 0 <= m < |ids| :: Grow(layers, ids)[|layers| + m] == Layer(|layers| + m + 1, ids[m])
    decreases |ids|
  {
    if |ids| > 0 {
      var grown := layers + [Layer(|layers| + 1, ids[0])];
      GrowAt(grown, ids[1..]);
      forall m | 1 <= m < |ids|
        ensures Grow(layers, ids)[|layers| + m] == Layer(|layers| + m + 1, ids[m])
      {
        assert Grow(layers, ids)[|layers| + m] == Grow(grown, ids[1..])[|grown| + (m - 1)];
        assert ids[1..][m - 1] == ids[m];
      }
    }
  }

  /**
    The hidden-layer loop of `Generate` from iteration `i` on: one layer
    per iteration, each built from the layer before, with a list of fresh
    node ids for each iteration still to run.
   */
  function GenerateHidden(net: Network, layerCount: int, nodesPerLayer: int, i: nat, ids: seq<seq<Id>>, rng: Rng): (r: (Network, Rng))
    requires |net.layers| == i + 1 && LayersResolve(net)
    requires i + |ids| == Clamp(layerCount)
    requires forall m | 0 <= m < |ids| :: |ids[m]| == Clamp(nodesPerLayer)
    requires FreshIds(net, Concat(ids))
    ensures r.0.layers == Grow(net.layers, ids)
    ensures r.0.inputNodes == net.inputNodes && r.0.outputNodes == net.outputNodes
    decreases |ids|
  {
    if i < layerCount then
      HiddenStep(net, layerCount, nodesPerLayer, i, ids, rng);
      var step := GenerateLayer(net, nodesPerLayer, i, ids[0], rng);
      var r := GenerateHidden(step.value.0, layerCount, nodesPerLayer, i + 1, ids[1..], step.value.1);
      r
    else
      (net, rng)
  }

  /** One iteration of the hidden-layer loop succeeds and leaves the rest of the loop's requirements met. */
  lemma HiddenStep(net: Network, layerCount: int, nodesPerLayer: int, i: nat, ids: seq<seq<Id>>, rng: Rng)
    requires |net.layers| == i + 1 && LayersResolve(net)
    requires i + |ids| == Clamp(layerCount) && i < layerCount
    requires forall m | 0 <= m < |ids| :: |ids[m]| == Clamp(nodesPerLayer)
    requires FreshIds(net, Concat(ids))
    ensures |ids| > 0 && |ids[0]| == Clamp(nodesPerLayer) && FreshIds(net, ids[0])
    ensures GenerateLayer(net, nodesPerLayer, i, ids[0], rng).Ok?
    ensures var n := GenerateLayer(net, nodesPerLayer, i, ids[0], rng).value.0;
      && n.layers == net.layers + [Layer(|net.layers| + 1, ids[0])]
      && Grow(n.layers, ids[1..]) == Grow(net.layers, ids)
      && n.inputNodes == net.inputNodes && n.outputNodes == net.outputNodes
      && n.nodes.Keys == net.nodes.Keys + Members(ids[0])
      && LayersResolve(n) && FreshIds(n, Concat(ids[1..]))
    ensures forall m | 0 <= m < |ids[1..]| :: |ids[1..][m]| == Clamp(nodesPerLayer)
  {
    FreshSplit(net, ids[0], Concat(ids[1..]));
    GenerateLayerKeys(net, nodesPerLayer, i, ids[0], rng);
    FreshAfter(net, GenerateLayer(net, nodesPerLayer, i, ids[0], rng).value.0, ids[0], Concat(ids[1..]));
  }

  /** The hidden-layer loop adds exactly the given ids as nodes. */
  lemma {:induction false} GenerateHiddenKeys(net: Network, layerCount: int, nodesPerLayer: int, i: nat, ids: seq<seq<Id>>, rng: Rng)
    requires |net.layers| == i + 1 && LayersResolve(net)
    requires i + |ids| == Clamp(layerCount)
    requires forall m | 0 <= m < |ids| :: |ids[m]| == Clamp(nodesPerLayer)
    requires FreshIds(net, Concat(ids))
    ensures GenerateHidden(net, layerCount, nodesPerLayer, i, ids, rng).0.nodes.Keys == net.nodes.Keys + Members(Concat(ids))
    decreases |ids|
  {
    if i < layerCount {
      HiddenStep(net, layerCount, nodesPerLayer, i, ids, rng);
      var step := GenerateLayer(net, nodesPerLayer, i, ids[0], rng);
      GenerateHiddenKeys(step.value.0, layerCount, nodesPerLayer, i + 1, ids[1..], step.value.1);
      assert Concat(ids) == ids[0] + Concat(ids[1..]);
      MembersAppend(ids[0], Concat(ids[1..]));
      UnionAssoc(net.nodes.Keys, Members(ids[0]), Members(Concat(ids[1..])));
    } else {
      assert Members(Concat(ids)) == {};
    }
  }

  /** The hidden-layer loop keeps the generated shape: each new layer is fully wired from the one before. */
  lemma {:induction false} GenerateHiddenBuilds(net: Network, layerCount: int, nodesPerLayer: int, i: nat, ids: seq<seq<Id>>, rng: Rng)
    requires Building(net, []) && |net.layers| == i + 1
    requires i + |ids| == Clamp(layerCount)
    requires forall m | 0 <= m < |ids| :: |ids[m]| == Clamp(nodesPerLayer)
    requires FreshIds(net, Concat(ids))
    ensures LayersResolve(net)
    ensures Building(GenerateHidden(net, layerCount, nodesPerLayer, i, ids, rng).0, [])
    decreases |ids|
  {
    if i < layerCount {
      HiddenStep(net, layerCount, nodesPerLayer, i, ids, rng);
      var step := GenerateLayer(net, nodesPerLayer, i, ids[0], rng);
      GenerateLayerBuilds(net, nodesPerLayer, i, ids[0], rng);
      GenerateHiddenBuilds(step.value.0, layerCount, nodesPerLayer, i + 1, ids[1..], step.value.1);
    }
  }

  /**
    The wiring part of the output loop of `Generate`, from iteration `i` on.
    For each id an output node is made (the serialization constructor with
    a zero bias, so a bias is drawn); then, for each node of `sources`, a
    `Connection` is built and thrown away (two draws) before that node is
    connected to the output node. As written, the thrown-away connection
    starts at `sources[i]`, the node at the output's own index, which fails
    once `i` passes the end of a non-empty `sources`; with `indexByOutput`
    false it starts at the node being connected instead.
   */
  function WireOutputs(net: Network, sources: seq<Id>, ids: seq<Id>, i: nat, indexByOutput: bool, rng: Rng): (r: Result<(Network, Rng)>)
    requires FreshIds(net, ids)
    requires forall k | 0 <= k < |sources| :: sources[k] in net.nodes
    ensures r.Err? <==> indexByOutput && |ids| > 0 && 0 < |sources| < i + |ids|
    ensures r.Err? ==> r.error == ArgumentOutOfRange
    decreases |ids|
  {
    if |ids| == 0 then Ok((net, rng))
    else if indexByOutput && |sources| > 0 && i >= |sources| then
      Err(ArgumentOutOfRange)
    else
      var (net1, rng1) := AddWired(net, sources, ids[0], true, rng);
      FreshIdsNext(net, net1, ids);
      WireOutputs(net1, sources, ids[1..], i + 1, indexByOutput, rng1)
  }

  /** Once past the index check, the output loop wires its nodes as the hidden node loop does, with a thrown-away connection per edge. */
  lemma {:induction false} WireOutputsAsNodes(net: Network, sources: seq<Id>, ids: seq<Id>, i: nat, indexByOutput: bool, rng: Rng)
    requires FreshIds(net, ids)
    requires forall k | 0 <= k < |sources| :: sources[k] in net.nodes
    requires WireOutputs(net, sources, ids, i, indexByOutput, rng).Ok?
    ensures WireOutputs(net, sources, ids, i, indexByOutput, rng).value == AddWiredNodes(net, sources, ids, true, rng)
    decreases |ids|
  {
    if |ids| > 0 {
      var (net1, rng1) := AddWired(net, sources, ids[0], true, rng);
      FreshIdsNext(net, net1, ids);
      WireOutputsAsNodes(net1, sources, ids[1..], i + 1, indexByOutput, rng1);
    }
  }

  /**
    The output loop of `Generate`: the output nodes are wired and appended,
    in order, to the output nodes. The model appends them once the wiring
    is done rather than one by one; the wiring does not read that list.
   */
  function AddOutputs(net: Network, sources: seq<Id>, ids: seq<Id>, indexByOutput: bool, rng: Rng): (r: Result<(Network, Rng)>)
    requires FreshIds(net, ids)
    requires forall k | 0 <= k < |sources| :: sources[k] in net.nodes
    ensures r.Err? <==> indexByOutput && 0 < |sources| < |ids|
    ensures r.Err? ==> r.error == ArgumentOutOfRange
    ensures r.Ok? ==> r.value.0.outputNodes == net.outputNodes + ids
    ensures r.Ok? ==> r.value.0.inputNodes == net.inputNodes && r.value.0.layers == net.layers
  {
    match WireOutputs(net, sources, ids, 0, indexByOutput, rng)
    case Err(e) => Err(e)
    case Ok((n, rng1)) =>
      WireOutputsAsNodes(net, sources, ids, 0, indexByOutput, rng);
      Ok((n.(outputNodes := n.outputNodes + ids), rng1))
  }

  /** A successful `AddOutputs` adds exactly the given ids as nodes, and one edge per output node and source. */
  lemma AddOutputsAdds(net: Network, sources: seq<Id>, ids: seq<Id>, indexByOutput: bool, rng: Rng)
    requires FreshIds(net, ids)
    requires forall k | 0 <= k < |sources| :: sources[k] in net.nodes
    requires AddOutputs(net, sources, ids, indexByOutput, rng).Ok?
    ensures AddOutputs(net, sources, ids, indexByOutput, rng).value.0.nodes.Keys == net.nodes.Keys + Members(ids)
    ensures |AddOutputs(net, sources, ids, indexByOutput, rng).value.0.edges| == |net.edges| + |ids| * |sources|
  {
    WireOutputsAsNodes(net, sources, ids, 0, indexByOutput, rng);
    AddWiredNodesKeys(net, sources, ids, true, rng);
    AddWiredNodesEdges(net, sources, ids, true, rng);
  }

  /** Wiring the output nodes from the last layer keeps the construction invariant; the output nodes become pending. */
  lemma AddOutputsBuilds(net: Network, pending: seq<Id>, ids: seq<Id>, indexByOutput: bool, rng: Rng)
    requires Building(net, pending) && FreshIds(net, ids)
    ensures forall k | 0 <= k < |LastLayer(net.layers)| :: LastLayer(net.layers)[k] in net.nodes
    ensures var r := AddOutputs(net, LastLayer(net.layers), ids, indexByOutput, rng);
      r.Ok? ==> Building(r.value.0, pending + ids)
  {
    var sources := LastLayer(net.layers);
    LastLayerIds(net.layers);
    var r := AddOutputs(net, sources, ids, indexByOutput, rng);
    if r.Ok? {
      WireOutputsAsNodes(net, sources, ids, 0, indexByOutput, rng);
      AddWiredNodesBuilds(net, pending, ids, true, rng);
      var n := AddWiredNodes(net, sources, ids, true, rng).0;
      BuildingIgnoresLists(n, pending + ids, n.inputNodes, n.outputNodes + ids);
    }
  }

  /**
    The input loop of `Generate` on a freshly constructed network, then the
    input layer: numbered 1, it holds the input node list itself.
   */
  function InputLayer(inputIds: seq<Id>, rng: Rng): (r: (Network, Rng))
    requires NoDup(inputIds)
    ensures r.0.inputNodes == inputIds && r.0.outputNodes == []
    ensures r.0.layers == [Layer(1, inputIds)]
    ensures r.0.nodes.Keys == Members(inputIds)
    ensures LayersResolve(r.0)
  {
    assert FreshIds(EmptyNetwork(), inputIds);
    var added := AddInputs(EmptyNetwork(), inputIds, rng);
    assert added.0.nodes.Keys == Members(inputIds) && added.0.inputNodes == inputIds by {
      NoKeysPlus(Members(inputIds));
    }
    assert forall k | 0 <= k < |inputIds| :: inputIds[k] in added.0.nodes;
    (added.0.(layers := [Layer(1, inputIds)]), added.1)
  }

  /** The input layer on its own is a generated network. */
  lemma InputLayerBuilds(inputIds: seq<Id>, rng: Rng)
    requires NoDup(inputIds)
    ensures Building(InputLayer(inputIds, rng).0, [])
  {
    var empty := EmptyNetwork();
    var n1 := AddInputs(empty, inputIds, rng).0;
    BuildingEmpty();
    AddInputsBuilds(empty, [], inputIds, rng);
    assert [] + inputIds == inputIds;
    CloseLayer(n1, inputIds, 1);
    assert n1.layers + [Layer(1, inputIds)] == InputLayer(inputIds, rng).0.layers;
  }

  /**
    The first half of `Generate` on a freshly constructed network: the input
    loop, the input layer and the hidden-layer loop.
   */
  function GenerateFront(layerCount: int, nodesPerLayer: int, inputIds: seq<Id>, hiddenIds: seq<seq<Id>>, rng: Rng): (r: (Network, Rng))
    requires |hiddenIds| == Clamp(layerCount)
    requires forall m | 0 <= m < |hiddenIds| :: |hiddenIds[m]| == Clamp(nodesPerLayer)
    requires NoDup(inputIds + Concat(hiddenIds))
    ensures r.0.inputNodes == inputIds && r.0.outputNodes == []
    ensures r.0.layers == Grow([Layer(1, inputIds)], hiddenIds)
  {
    var empty := EmptyNetwork();
    FreshSplit(empty, inputIds, Concat(hiddenIds));
    var (n1, rng1) := InputLayer(inputIds, rng);
    FreshAfter(empty, n1, inputIds, Concat(hiddenIds));
    GenerateHidden(n1, layerCount, nodesPerLayer, 0, hiddenIds, rng1)
  }

  /** The first half of `Generate` builds a generated network of its input and hidden nodes. */
  lemma GenerateFrontBuilds(layerCount: int, nodesPerLayer: int, inputIds: seq<Id>, hiddenIds: seq<seq<Id>>, rng: Rng)
    requires |hiddenIds| == Clamp(layerCount)
    requires forall m | 0 <= m < |hiddenIds| :: |hiddenIds[m]| == Clamp(nodesPerLayer)
    requires NoDup(inputIds + Concat(hiddenIds))
    ensures var n := GenerateFront(layerCount, nodesPerLayer, inputIds, hiddenIds, rng).0;
      Building(n, []) && n.nodes.Keys == Members(inputIds + Concat(hiddenIds))
  {
    var empty := EmptyNetwork();
    FreshSplit(empty, inputIds, Concat(hiddenIds));
    var (n1, rng1) := InputLayer(inputIds, rng);
    FreshAfter(empty, n1, inputIds, Concat(hiddenIds));
    InputLayerBuilds(inputIds, rng);
    GenerateHiddenBuilds(n1, layerCount, nodesPerLayer, 0, hiddenIds, rng1);
    GenerateHiddenKeys(n1, layerCount, nodesPerLayer, 0, hiddenIds, rng1);
    MembersAppend(inputIds, Concat(hiddenIds));
  }

  /**
    After the first half of `Generate`, the last layer is the input layer
    when there are no hidden layers and the last hidden layer otherwise;
    all its nodes are nodes of the network.
   */
  lemma GenerateFrontLast(layerCount: int, nodesPerLayer: int, inputIds: seq<Id>, hiddenIds: seq<seq<Id>>, rng: Rng)
    requires |hiddenIds| == Clamp(layerCount)
    requires forall m | 0 <= m < |hiddenIds| :: |hiddenIds[m]| == Clamp(nodesPerLayer)
    requires NoDup(inputIds + Concat(hiddenIds))
    ensures var n := GenerateFront(layerCount, nodesPerLayer, inputIds, hiddenIds, rng).0;
      && n.nodes.Keys == Members(inputIds + Concat(hiddenIds))
      && |n.layers| == |hiddenIds| + 1
      && |LastLayer(n.layers)| == (if layerCount <= 0 then |inputIds| else Clamp(nodesPerLayer))
      && (forall k | 0 <= k < |LastLayer(n.layers)| :: LastLayer(n.layers)[k] in n.nodes)
  {
    var n := GenerateFront(layerCount, nodesPerLayer, inputIds, hiddenIds, rng).0;
    GenerateFrontBuilds(layerCount, nodesPerLayer, inputIds, hiddenIds, rng);
    GrowAt([Layer(1, inputIds)], hiddenIds);
    LastLayerIds(n.layers);
    if |hiddenIds| > 0 {
      assert n.layers[|hiddenIds|] == Layer(|hiddenIds| + 1, hiddenIds[|hiddenIds| - 1]);
    }
  }

  /**
    The ids `Generate` takes from the id supply: one per input node, one
    list per hidden layer with one per node, one per output node, and none
    repeated.
   */
  ghost predicate IdSupply(inputCount: int, layerCount: int, nodesPerLayer: int, outputCount: int,
                           inputIds: seq<Id>, hiddenIds: seq<seq<Id>>, outputIds: seq<Id>) {
    && |inputIds| == Clamp(inputCount)
    && |hiddenIds| == Clamp(layerCount)
    && (forall m | 0 <= m < |hiddenIds| :: |hiddenIds[m]| == Clamp(nodesPerLayer))
    && |outputIds| == Clamp(outputCount)
    && NoDup(inputIds + Concat(hiddenIds) + outputIds)
  }

  /** The size of `Layers[layerCount]` once the hidden layers exist: the input layer when there are none, else the last hidden layer. */
  function PreviousSize(inputCount: int, layerCount: int, nodesPerLayer: int): nat {
    if layerCount == 0 then Clamp(inputCount) else Clamp(nodesPerLayer)
  }

  /** The parts of a list without repeats have none. */
  lemma NoDupSplit(a: seq<Id>, b: seq<Id>)
    requires NoDup(a + b)
    ensures NoDup(a) && NoDup(b)
  {
    FreshSplit(EmptyNetwork(), a, b);
  }

  /**
    After the first half of `Generate`, the output ids are still fresh, and
    the layer the output loop reads, when it exists, is the last layer and
    as wide as `PreviousSize` says.
   */
  lemma FrontReady(layerCount: int, nodesPerLayer: int, inputIds: seq<Id>, hiddenIds: seq<seq<Id>>, outputIds: seq<Id>, rng: Rng)
    requires |hiddenIds| == Clamp(layerCount)
    requires forall m | 0 <= m < |hiddenIds| :: |hiddenIds[m]| == Clamp(nodesPerLayer)
    requires NoDup(inputIds + Concat(hiddenIds)) && NoDup(inputIds + Concat(hiddenIds) + outputIds)
    ensures var n := GenerateFront(layerCount, nodesPerLayer, inputIds, hiddenIds, rng).0;
      && FreshIds(n, outputIds)
      && |n.layers| == Clamp(layerCount) + 1
      && (layerCount >= 0 ==> n.layers[layerCount].nodes == LastLayer(n.layers))
      && (layerCount >= 0 ==> |LastLayer(n.layers)| == PreviousSize(|inputIds|, layerCount, nodesPerLayer))
      && (forall k | 0 <= k < |LastLayer(n.layers)| :: LastLayer(n.layers)[k] in n.nodes)
  {
    var front := inputIds + Concat(hiddenIds);
    var n := GenerateFront(layerCount, nodesPerLayer, inputIds, hiddenIds, rng).0;
    assert n.nodes.Keys == Members(front) && |n.layers| == |hiddenIds| + 1
      && |LastLayer(n.layers)| == (if layerCount <= 0 then |inputIds| else Clamp(nodesPerLayer))
      && (forall k | 0 <= k < |LastLayer(n.layers)| :: LastLayer(n.layers)[k] in n.nodes) by {
      GenerateFrontLast(layerCount, nodesPerLayer, inputIds, hiddenIds, rng);
    }
    assert FreshIds(n, outputIds) by {
      NoKeysPlus(Members(front));
      FreshAfter(EmptyNetwork(), n, front, outputIds);
    }
    if layerCount >= 0 {
      LastLayerAt(n.layers, layerCount);
    }
  }

  /**
    `network.Generate(inputCount, layerCount, nodesPerLayer, outputCount)`
    on a freshly constructed network, with the output loop's thrown-away
    connection indexed as `indexByOutput` says. The input layer, `layerCount`
    hidden layers and the output layer are built in that order; the output
    layer is numbered `layerCount + 2` and holds the output node list
    itself. The output loop reads `Layers[layerCount]`, which does not exist
    when `layerCount` is negative.
   */
  function GenerateNetwork(inputCount: int, layerCount: int, nodesPerLayer: int, outputCount: int,
                           inputIds: seq<Id>, hiddenIds: seq<seq<Id>>, outputIds: seq<Id>,
                           indexByOutput: bool, rng: Rng): (r: Result<(Network, Rng)>)
    requires IdSupply(inputCount, layerCount, nodesPerLayer, outputCount, inputIds, hiddenIds, outputIds)
    ensures r.Err? <==>
      outputCount > 0 && (layerCount < 0 || (indexByOutput && 0 < PreviousSize(inputCount, layerCount, nodesPerLayer) < outputCount))
    ensures r.Err? ==> r.error == ArgumentOutOfRange
    ensures r.Ok? ==> r.value.0.inputNodes == inputIds && r.value.0.outputNodes == outputIds
    ensures r.Ok? ==> r.value.0.layers == Grow([Layer(1, inputIds)], hiddenIds) + [Layer(layerCount + 2, outputIds)]
  {
    NoDupSplit(inputIds + Concat(hiddenIds), outputIds);
    var front := GenerateFront(layerCount, nodesPerLayer, inputIds, hiddenIds, rng);
    if outputCount > 0 && layerCount < 0 then
      Err(ArgumentOutOfRange)
    else
      FrontReady(layerCount, nodesPerLayer, inputIds, hiddenIds, outputIds, rng);
      var sources := if layerCount >= 0 then front.0.layers[layerCount].nodes else [];
      var outputs := AddOutputs(front.0, sources, outputIds, indexByOutput, front.1);
      if outputs.Err? then Err(outputs.error)
      else
        var n4 := outputs.value.0;
        Ok((n4.(layers := n4.layers + [Layer(layerCount + 2, n4.outputNodes)]), outputs.value.1))
  }

  /** `Generate` as written: the thrown-away connection of the output loop is indexed by the output's index. */
  function Generate(inputCount: int, layerCount: int, nodesPerLayer: int, outputCount: int,
                    inputIds: seq<Id>, hiddenIds: seq<seq<Id>>, outputIds: seq<Id>, rng: Rng): (r: Result<(Network, Rng)>)
    requires IdSupply(inputCount, layerCount, nodesPerLayer, outputCount, inputIds, hiddenIds, outputIds)
    ensures r.Err? <==>
      outputCount > 0 && (layerCount < 0 || 0 < PreviousSize(inputCount, layerCount, nodesPerLayer) < outputCount)
    ensures r.Err? ==> r.error == ArgumentOutOfRange
  {
    GenerateNetwork(inputCount, layerCount, nodesPerLayer, outputCount, inputIds, hiddenIds, outputIds, true, rng)
  }

  /** `Generate` with the thrown-away connection starting at the node being connected: only a negative `layerCount` with outputs fails. */
  function GenerateCorrected(inputCount: int, layerCount: int, nodesPerLayer: int, outputCount: int,
                             inputIds: seq<Id>, hiddenIds: seq<seq<Id>>, outputIds: seq<Id>, rng: Rng): (r: Result<(Network, Rng)>)
    requires IdSupply(inputCount, layerCount, nodesPerLayer, outputCount, inputIds, hiddenIds, outputIds)
    ensures r.Err? <==> outputCount > 0 && layerCount < 0
    ensures r.Err? ==> r.error == ArgumentOutOfRange
  {
    GenerateNetwork(inputCount, layerCount, nodesPerLayer, outputCount, inputIds, hiddenIds, outputIds, false, rng)
  }

  /** The output loop and the output layer close a network under construction into a generated one. */
  lemma OutputLayerBuilds(net: Network, sources: seq<Id>, ids: seq<Id>, number: int, indexByOutput: bool, rng: Rng)
    requires Building(net, []) && FreshIds(net, ids) && net.outputNodes == []
    requires sources == LastLayer(net.layers) || ids == []
    requires forall k | 0 <= k < |sources| :: sources[k] in net.nodes
    requires AddOutputs(net, sources, ids, indexByOutput, rng).Ok?
    ensures var n := AddOutputs(net, sources, ids, indexByOutput, rng).value.0;
      Building(n.(layers := n.layers + [Layer(number, n.outputNodes)]), [])
  {
    var n := AddOutputs(net, sources, ids, indexByOutput, rng).value.0;
    if sources == LastLayer(net.layers) {
      AddOutputsBuilds(net, [], ids, indexByOutput, rng);
    } else {
      assert n == net.(outputNodes := net.outputNodes + ids);
      BuildingIgnoresLists(net, [], net.inputNodes, net.outputNodes + ids);
    }
    assert [] + ids == ids && n.outputNodes == ids;
    CloseLayer(n, ids, number);
  }

  /**
    A network `Generate` builds is a generated one: consistent, strictly
    layered, fully wired between consecutive layers (so without cycles),
    every bias and weight in [-1, 1], exactly the edges full wiring needs,
    and exactly the supplied ids as nodes.
   */
  lemma GenerateBuilds(inputCount: int, layerCount: int, nodesPerLayer: int, outputCount: int,
                       inputIds: seq<Id>, hiddenIds: seq<seq<Id>>, outputIds: seq<Id>, indexByOutput: bool, rng: Rng)
    requires IdSupply(inputCount, layerCount, nodesPerLayer, outputCount, inputIds, hiddenIds, outputIds)
    requires GenerateNetwork(inputCount, layerCount, nodesPerLayer, outputCount, inputIds, hiddenIds, outputIds, indexByOutput, rng).Ok?
    ensures var net := GenerateNetwork(inputCount, layerCount, nodesPerLayer, outputCount, inputIds, hiddenIds, outputIds, indexByOutput, rng).value.0;
      Generated(net) && Bounded(net) && |net.edges| == EdgeTotal(net.layers)
  {
    var front := inputIds + Concat(hiddenIds);
    NoDupSplit(front, outputIds);
    var (n3, rng3) := GenerateFront(layerCount, nodesPerLayer, inputIds, hiddenIds, rng);
    GenerateFrontBuilds(layerCount, nodesPerLayer, inputIds, hiddenIds, rng);
    GenerateFrontLast(layerCount, nodesPerLayer, inputIds, hiddenIds, rng);
    NoKeysPlus(Members(front));
    FreshAfter(EmptyNetwork(), n3, front, outputIds);
    var sources := if layerCount >= 0 then n3.layers[layerCount].nodes else [];
    OutputLayerBuilds(n3, sources, outputIds, layerCount + 2, indexByOutput, rng3);
    var n4 := AddOutputs(n3, sources, outputIds, indexByOutput, rng3).value.0;
    BuildingDone(n4.(layers := n4.layers + [Layer(layerCount + 2, n4.outputNodes)]));
  }

  /** A network `Generate` builds has exactly the supplied ids as nodes. */
  lemma GenerateKeys(inputCount: int, layerCount: int, nodesPerLayer: int, outputCount: int,
                     inputIds: seq<Id>, hiddenIds: seq<seq<Id>>, outputIds: seq<Id>, indexByOutput: bool, rng: Rng)
    requires IdSupply(inputCount, layerCount, nodesPerLayer, outputCount, inputIds, hiddenIds, outputIds)
    requires GenerateNetwork(inputCount, layerCount, nodesPerLayer, outputCount, inputIds, hiddenIds, outputIds, indexByOutput, rng).Ok?
    ensures GenerateNetwork(inputCount, layerCount, nodesPerLayer, outputCount, inputIds, hiddenIds, outputIds, indexByOutput, rng).value.0.nodes.Keys
      == Members(inputIds + Concat(hiddenIds) + outputIds)
  {
    var front := inputIds + Concat(hiddenIds);
    NoDupSplit(front, outputIds);
    var (n3, rng3) := GenerateFront(layerCount, nodesPerLayer, inputIds, hiddenIds, rng);
    GenerateFrontLast(layerCount, nodesPerLayer, inputIds, hiddenIds, rng);
    NoKeysPlus(Members(front));
    FreshAfter(EmptyNetwork(), n3, front, outputIds);
    var sources := if layerCount >= 0 then n3.layers[layerCount].nodes else [];
    AddOutputsAdds(n3, sources, outputIds, indexByOutput, rng3);
    MembersAppend(front, outputIds);
  }

  /** A list without repeats has as many members as elements. */
  lemma {:induction false} MembersCard(ids: seq<Id>)
    requires NoDup(ids)
    ensures |Members(ids)| == |ids|
    decreases |ids|
  {
    if |ids| > 0 {
      NoDupTail(ids);
      MembersCard(ids[1..]);
      assert Members(ids) == {ids[0]} + Members(ids[1..]);
    } else {
      assert Members(ids) == {};
    }
  }

  /** Lists of `n` ids each, laid end to end, hold `n` ids per list. */
  lemma {:induction false} ConcatLength(lists: seq<seq<Id>>, n: nat)
    requires forall m | 0 <= m < |lists| :: |lists[m]| == n
    ensures |Concat(lists)| == |lists| * n
    decreases |lists|
  {
    if |lists| > 0 {
      ConcatLength(lists[1..], n);
      assert |Concat(lists)| == n + |Concat(lists[1..])|;
    }
  }

  /**
    The shape `Generate` promises: `inputCount + layerCount * nodesPerLayer
    + outputCount` nodes (negative counts read as zero), `layerCount + 2`
    layers, the input layer numbered 1 and holding the input nodes, hidden
    layer `j` numbered `j + 1` and holding its own ids, and the output
    layer, last, numbered `layerCount + 2` and holding the output nodes.
   */
  lemma GenerateShape(inputCount: int, layerCount: int, nodesPerLayer: int, outputCount: int,
                      inputIds: seq<Id>, hiddenIds: seq<seq<Id>>, outputIds: seq<Id>, indexByOutput: bool, rng: Rng)
    requires IdSupply(inputCount, layerCount, nodesPerLayer, outputCount, inputIds, hiddenIds, outputIds)
    requires GenerateNetwork(inputCount, layerCount, nodesPerLayer, outputCount, inputIds, hiddenIds, outputIds, indexByOutput, rng).Ok?
    ensures var net := GenerateNetwork(inputCount, layerCount, nodesPerLayer, outputCount, inputIds, hiddenIds, outputIds, indexByOutput, rng).value.0;
      && |net.nodes| == Clamp(inputCount) + Clamp(layerCount) * Clamp(nodesPerLayer) + Clamp(outputCount)
      && |net.inputNodes| == Clamp(inputCount) && |net.outputNodes| == Clamp(outputCount)
      && |net.layers| == Clamp(layerCount) + 2
      && net.layers[0] == Layer(1, net.inputNodes)
      && (forall j | 1 <= j <= Clamp(layerCount) :: net.layers[j] == Layer(j + 1, hiddenIds[j - 1]))
      && net.layers[|net.layers| - 1] == Layer(layerCount + 2, net.outputNodes)
  {
    var net := GenerateNetwork(inputCount, layerCount, nodesPerLayer, outputCount, inputIds, hiddenIds, outputIds, indexByOutput, rng).value.0;
    assert |net.nodes| == Clamp(inputCount) + Clamp(layerCount) * Clamp(nodesPerLayer) + Clamp(outputCount) by {
      GenerateKeys(inputCount, layerCount, nodesPerLayer, outputCount, inputIds, hiddenIds, outputIds, indexByOutput, rng);
      SupplySize(inputCount, layerCount, nodesPerLayer, outputCount, inputIds, hiddenIds, outputIds);
      assert |net.nodes| == |net.nodes.Keys|;
    }
    GrowShape(inputIds, hiddenIds, outputIds, layerCount + 2);
  }

  /** The supplied ids are `inputCount + layerCount * nodesPerLayer + outputCount` distinct ids, negative counts read as zero. */
  lemma SupplySize(inputCount: int, layerCount: int, nodesPerLayer: int, outputCount: int,
                   inputIds: seq<Id>, hiddenIds: seq<seq<Id>>, outputIds: seq<Id>)
    requires IdSupply(inputCount, layerCount, nodesPerLayer, outputCount, inputIds, hiddenIds, outputIds)
    ensures |Members(inputIds + Concat(hiddenIds) + outputIds)| == Clamp(inputCount) + Clamp(layerCount) * Clamp(nodesPerLayer) + Clamp(outputCount)
  {
    MembersCard(inputIds + Concat(hiddenIds) + outputIds);
    ConcatLength(hiddenIds, Clamp(nodesPerLayer));
  }

  /** The input layer, the hidden layers grown from it and a last layer, in that order. */
  lemma GrowShape(inputIds: seq<Id>, hiddenIds: seq<seq<Id>>, outputIds: seq<Id>, number: int)
    ensures var layers := Grow([Layer(1, inputIds)], hiddenIds) + [Layer(number, outputIds)];
      && |layers| == |hiddenIds| + 2
      && layers[0] == Layer(1, inputIds)
      && (forall j | 1 <= j <= |hiddenIds| :: layers[j] == Layer(j + 1, hiddenIds[j - 1]))
      && layers[|layers| - 1] == Layer(number, outputIds)
  {
    var grown := Grow([Layer(1, inputIds)], hiddenIds);
    GrowAt([Layer(1, inputIds)], hiddenIds);
    forall j | 1 <= j <= |hiddenIds|
      ensures (grown + [Layer(number, outputIds)])[j] == Layer(j + 1, hiddenIds[j - 1])
    {
      assert grown[1 + (j - 1)] == Layer(1 + (j - 1) + 1, hiddenIds[j - 1]);
    }
  }

  /**
    The output loop as written fails on a network whose output layer is
    wider than a non-empty layer before it, where the corrected loop
    succeeds: one input, one hidden layer of one node, two outputs.
   */
  lemma OutputIndexCounterexample(rng: Rng)
    ensures IdSupply(1, 1, 1, 2, ["in"], [["hidden"]], ["out1", "out2"])
    ensures Generate(1, 1, 1, 2, ["in"], [["hidden"]], ["out1", "out2"], rng) == Err(ArgumentOutOfRange)
    ensures GenerateCorrected(1, 1, 1, 2, ["in"], [["hidden"]], ["out1", "out2"], rng).Ok?
  {
    var all := ["in"] + Concat([["hidden"]]) + ["out1", "out2"];
    assert Concat([["hidden"]]) == ["hidden"] + Concat([]);
    assert all == ["in", "hidden", "out1", "out2"];
  }

  /**
    The corrected `Generate` fails only for outputs behind a negative
    `layerCount`, and whatever it builds is a generated network.
   */
  lemma GenerateCorrectedBuilds(inputCount: int, layerCount: int, nodesPerLayer: int, outputCount: int,
                                inputIds: seq<Id>, hiddenIds: seq<seq<Id>>, outputIds: seq<Id>, rng: Rng)
    requires IdSupply(inputCount, layerCount, nodesPerLayer, outputCount, inputIds, hiddenIds, outputIds)
    requires layerCount >= 0 || outputCount <= 0
    ensures GenerateCorrected(inputCount, layerCount, nodesPerLayer, outputCount, inputIds, hiddenIds, outputIds, rng).Ok?
    ensures var net := GenerateCorrected(inputCount, layerCount, nodesPerLayer, outputCount, inputIds, hiddenIds, outputIds, rng).value.0;
      Generated(net) && Bounded(net) && |net.edges| == EdgeTotal(net.layers)
  {
    GenerateBuilds(inputCount, layerCount, nodesPerLayer, outputCount, inputIds, hiddenIds, outputIds, false, rng);
  }

  /**
    `Generate(2, 1, 3, 1)`: two inputs, one hidden layer of three nodes and
    one output make six nodes in three layers, joined by 2 * 3 + 3 * 1 = 9
    edges.
   */
  lemma GenerateExample(inputCount: int, layerCount: int, nodesPerLayer: int, outputCount: int,
                        inputIds: seq<Id>, hiddenIds: seq<seq<Id>>, outputIds: seq<Id>, rng: Rng)
    requires inputCount == 2 && layerCount == 1 && nodesPerLayer == 3 && outputCount == 1
    requires IdSupply(inputCount, layerCount, nodesPerLayer, outputCount, inputIds, hiddenIds, outputIds)
    ensures Generate(inputCount, layerCount, nodesPerLayer, outputCount, inputIds, hiddenIds, outputIds, rng).Ok?
    ensures var net := Generate(inputCount, layerCount, nodesPerLayer, outputCount, inputIds, hiddenIds, outputIds, rng).value.0;
      |net.nodes| == 6 && |net.layers| == 3 && |net.edges| == 9
  {
    var r := Generate(inputCount, layerCount, nodesPerLayer, outputCount, inputIds, hiddenIds, outputIds, rng);
    assert r.Ok?;
    var net := r.value.0;
    assert |net.nodes| == 6 && |net.layers| == 3 && |net.layers[0].nodes| == 2 && |net.layers[1].nodes| == 3 && |net.layers[2].nodes| == 1 by {
      GenerateShape(inputCount, layerCount, nodesPerLayer, outputCount, inputIds, hiddenIds, outputIds, true, rng);
    }
    assert |net.edges| == EdgeTotal(net.layers) by {
      GenerateEdgeCount(inputCount, layerCount, nodesPerLayer, outputCount, inputIds, hiddenIds, outputIds, true, rng);
    }
    EdgeTotalThree(net.layers, 2, 3, 1);
  }

  /** The edges full wiring of three layers needs. */
  lemma EdgeTotalThree(layers: seq<Layer>, a: nat, b: nat, c: nat)
    requires |layers| == 3 && |layers[0].nodes| == a && |layers[1].nodes| == b && |layers[2].nodes| == c
    ensures EdgeTotal(layers) == a * b + b * c
  {
    assert EdgeTotal(layers[..2]) == EdgeTotal(layers[..2][..1]) + |layers[0].nodes| * |layers[1].nodes|;
  }

  /** A network `Generate` builds has exactly the edges full wiring between its consecutive layers needs. */
  lemma GenerateEdgeCount(inputCount: int, layerCount: int, nodesPerLayer: int, outputCount: int,
                          inputIds: seq<Id>, hiddenIds: seq<seq<Id>>, outputIds: seq<Id>, indexByOutput: bool, rng: Rng)
    requires IdSupply(inputCount, layerCount, nodesPerLayer, outputCount, inputIds, hiddenIds, outputIds)
    requires GenerateNetwork(inputCount, layerCount, nodesPerLayer, outputCount, inputIds, hiddenIds, outputIds, indexByOutput, rng).Ok?
    ensures var net := GenerateNetwork(inputCount, layerCount, nodesPerLayer, outputCount, inputIds, hiddenIds, outputIds, indexByOutput, rng).value.0;
      |net.edges| == EdgeTotal(net.layers)
  {
    GenerateBuilds(inputCount, layerCount, nodesPerLayer, outputCount, inputIds, hiddenIds, outputIds, indexByOutput, rng);
  }

  /*
    Small facts about sequences, sets and arithmetic, with no counterpart in
    the C# code. They are stated separately so that the solver meets each
    step on its own, over plain variables, rather than inside a large proof.
   */

  /** Position `s` of row `k`, after `n` earlier items, in both forms. */
  lemma RowOffset(n: int, k: nat, m: nat, s: nat) returns (e: int)
    ensures e == n + k * m + s && e == n + Rows(k, m) + s
  {
    RowsProduct(k, m);
    e := n + k * m + s;
  }

  /** `k` rows are one row more than `k1 = k - 1` rows. */
  lemma RowsNext(k: nat, k1: nat, m: nat)
    requires k == k1 + 1
    ensures Rows(k, m) == Rows(k1, m) + m
  {
  }

  /** Element `k` of a list is element `k1 = k - 1` of its tail. */
  lemma TailAt(ids: seq<Id>, rest: seq<Id>, k: nat, k1: nat)
    requires 0 < k < |ids| && rest == ids[1..] && k == k1 + 1
    ensures k1 < |rest| && rest[k1] == ids[k]
  {
  }

  /** A prefix of a prefix is a prefix. */
  lemma PrefixTrans(a: seq<Connection>, b: seq<Connection>, c: seq<Connection>)
    requires |a| <= |b| <= |c| && b[..|a|] == a && c[..|b|] == b
    ensures c[..|a|] == a
  {
    assert c[..|a|] == c[..|b|][..|a|];
  }

  /** The layer at index `j = |layers| - 1` is the last one. */
  lemma LastLayerAt(layers: seq<Layer>, j: int)
    requires j == |layers| - 1 >= 0
    ensures layers[j].nodes == LastLayer(layers)
  {
  }

  /** Set union is associative. */
  lemma UnionAssoc(a: set<Id>, b: set<Id>, c: set<Id>)
    ensures (a + b) + c == a + (b + c)
  {
  }

  /** The empty network has no nodes to add to. */
  lemma NoKeysPlus(s: set<Id>)
    ensures EmptyNetwork().nodes.Keys + s == s
  {
  }
}

=== FILE: graph.dfy ===
/**
  The data model of the network: connections, nodes, layers and the network
  that owns them.

  In the C# program a `Connection` object is shared by the out-list of its
  source node and the in-list of its target node, and layers and the
  input/output lists hold references to the nodes of `Network.Nodes`. Here the
  connections live once, in `Network.edges`, and nodes hold indices into it;
  layers and the input/output lists hold node ids, resolved in `Network.nodes`.
 */
module Graph {

  /** A node id: the decimal string of a random integer. */
  type Id = string

  /** A weighted directed edge, named by the ids of its endpoints. */
  datatype Connection = Connection(from: Id, to: Id, weight: real)

  /** A node; `outs` and `ins` are indices into the network's edge sequence, in insertion order. */
  datatype Node = Node(id: Id, bias: real, activation: real, outs: seq<nat>, ins: seq<nat>)

  /** A layer: its number and its nodes, in evaluation order. */
  datatype Layer = Layer(number: int, nodes: seq<Id>)

  datatype Network = Network(
    nodes: map<Id, Node>,
    edges: seq<Connection>,
    inputNodes: seq<Id>,
    outputNodes: seq<Id>,
    layers: seq<Layer>)

  /** The exceptions the C# code can raise on the modelled paths. */
  datatype Error =
    | KeyNotFound(key: Id)   // Dictionary lookup of an absent id
    | ArgumentOutOfRange     // List index out of range (negative or past the end)

  datatype Result<T> = Ok(value: T) | Err(error: Error)

  /** A freshly constructed `Network`: everything empty. */
  function EmptyNetwork(): Network {
    Network(map[], [], [], [], [])
  }

  /** Every edge index held by a node names an edge (the C# lists hold live objects). */
  ghost predicate WellIndexed(net: Network) {
    forall id | id in net.nodes ::
      && (forall k | 0 <= k < |net.nodes[id].outs| :: net.nodes[id].outs[k] < |net.edges|)
      && (forall k | 0 <= k < |net.nodes[id].ins| :: net.nodes[id].ins[k] < |net.edges|)
  }

  /** Every id held by a layer names a node of the network. */
  ghost predicate LayersResolve(net: Network) {
    forall j, k | 0 <= j < |net.layers| && 0 <= k < |net.layers[j].nodes| :: net.layers[j].nodes[k] in net.nodes
  }

  /**
    The connection-consistency invariant: nodes are keyed by their own id; a
    node's out-edges start at it and its in-edges end at it; and every edge
    has both endpoints in the network and is listed by both of them.
   */
  ghost predicate Consistent(net: Network) {
    && WellIndexed(net)
    && KeyedById(net)
    && OutsStartHere(net)
    && InsEndHere(net)
    && EdgesListed(net)
  }

  ghost predicate KeyedById(net: Network) {
    forall id | id in net.nodes :: net.nodes[id].id == id
  }

  ghost predicate OutsStartHere(net: Network) {
    forall id, k | id in net.nodes && 0 <= k < |net.nodes[id].outs| ::
      net.nodes[id].outs[k] < |net.edges| && net.edges[net.nodes[id].outs[k]].from == id
  }

  ghost predicate InsEndHere(net: Network) {
    forall id, k | id in net.nodes && 0 <= k < |net.nodes[id].ins| ::
      net.nodes[id].ins[k] < |net.edges| && net.edges[net.nodes[id].ins[k]].to == id
  }

  ghost predicate EdgesListed(net: Network) {
    forall e | 0 <= e < |net.edges| ::
      && net.edges[e].from in net.nodes
      && net.edges[e].to in net.nodes
      && e in net.nodes[net.edges[e].from].outs
      && e in net.nodes[net.edges[e].to].ins
  }

  /** The source ids of a list of edges, in list order. */
  ghost function Sources(edges: seq<Connection>, list: seq<nat>): (s: seq<Id>)
    requires forall k | 0 <= k < |list| :: list[k] < |edges|
    ensures |s| == |list|
    ensures forall k | 0 <= k < |list| :: s[k] == edges[list[k]].from
  {
    seq(|list|, k requires 0 <= k < |list| => edges[list[k]].from)
  }

  /** The activation of every node, by id. */
  ghost function Activations(net: Network): (m: map<Id, real>)
    ensures m.Keys == net.nodes.Keys
  {
    map id | id in net.nodes :: net.nodes[id].activation
  }

  /**
    The weighted input of a list of edges: the sum of weight times source
    activation, the source activations taken from `acts`. An edge index out of
    range or a source missing from `acts` contributes nothing; every statement
    about `Dot` below rules both out.
   */
  ghost function Dot(edges: seq<Connection>, list: seq<nat>, acts: map<Id, real>): real
    decreases |list|
  {
    if |list| == 0 then 0.0
    else Term(edges, list[0], acts) + Dot(edges, list[1..], acts)
  }

  /** One summand of `Dot`: the weight of edge `e` times the activation of its source. */
  ghost function Term(edges: seq<Connection>, e: nat, acts: map<Id, real>): real {
    if e < |edges| && edges[e].from in acts then edges[e].weight * acts[edges[e].from] else 0.0
  }

  /** No id occurs twice. */
  ghost predicate NoDup(ids: seq<Id>) {
    forall a, b | 0 <= a < b < |ids| :: ids[a] != ids[b]
  }

  /** The members of a list, as a set. */
  ghost function Members(ids: seq<Id>): set<Id> {
    set x | x in ids
  }

  /** The members of two lists laid end to end. */
  lemma MembersAppend(a: seq<Id>, b: seq<Id>)
    ensures Members(a + b) == Members(a) + Members(b)
  {
    assert forall x | x in a + b :: x in a || x in b;
  }

  /** Dropping the head of a list without duplicates leaves one without duplicates and without the head. */
  lemma NoDupTail(ids: seq<Id>)
    requires NoDup(ids) && |ids| > 0
    ensures NoDup(ids[1..])
    ensures ids[0] !in ids[1..]
    ensures forall x | x in ids[1..] :: x in ids
  {
    forall x | x in ids[1..]
      ensures x in ids && x != ids[0]
    {
      var k :| 0 <= k < |ids| - 1 && ids[1..][k] == x;
      assert ids[k + 1] == x;
    }
  }

  /** Only activations may differ: same node ids, biases, edge lists, edges, layers and node lists. */
  ghost predicate SameExceptActivations(a: Network, b: Network) {
    && a.edges == b.edges
    && a.inputNodes == b.inputNodes
    && a.outputNodes == b.outputNodes
    && a.layers == b.layers
    && a.nodes.Keys == b.nodes.Keys
    && (forall id | id in a.nodes :: b.nodes[id] == a.nodes[id].(activation := b.nodes[id].activation))
  }

  /** The same graph: node ids and edge lists, and the endpoints of every edge, agree. */
  ghost predicate SameTopology(a: Network, b: Network) {
    && a.nodes.Keys == b.nodes.Keys
    && (forall id | id in a.nodes ::
          && b.nodes[id].id == a.nodes[id].id
          && b.nodes[id].outs == a.nodes[id].outs
          && b.nodes[id].ins == a.nodes[id].ins)
    && |a.edges| == |b.edges|
    && (forall e | 0 <= e < |a.edges| :: b.edges[e].from == a.edges[e].from && b.edges[e].to == a.edges[e].to)
    && a.inputNodes == b.inputNodes
    && a.outputNodes == b.outputNodes
    && a.layers == b.layers
  }

  /** Consistency is about nodes and edges only: it does not look at the layers or the node lists. */
  lemma ConsistentOnNodesAndEdges(a: Network, b: Network)
    requires a.nodes == b.nodes && a.edges == b.edges
    ensures Consistent(a) ==> Consistent(b)
  {
  }

  lemma SameExceptActivationsTransitive(a: Network, b: Network, c: Network)
    requires SameExceptActivations(a, b) && SameExceptActivations(b, c)
    ensures SameExceptActivations(a, c)
  {
  }

  /** Changing activations keeps every structural invariant. */
  lemma SameExceptActivationsKeepsConsistent(a: Network, b: Network)
    requires SameExceptActivations(a, b)
    ensures WellIndexed(a) ==> WellIndexed(b)
    ensures LayersResolve(a) ==> LayersResolve(b)
    ensures Consistent(a) ==> Consistent(b)
  {
  }
}

=== FILE: layering.dfy ===
/**
  The layered shape `Network.Generate` builds, and what follows from it:
  edges only join consecutive layers, each pair of nodes in consecutive
  layers is joined by exactly one edge, and there are no cycles.
 */
module Layering {
  import opened Graph

  /**
    No id occurs twice across all layers, nor twice within one: the last layer
    holding a node is the layer it is listed in, and no earlier position of
    its layer lists it.
   */
  ghost predicate DisjointLayers(layers: seq<Layer>) {
    forall j, k | 0 <= j < |layers| && 0 <= k < |layers[j].nodes| ::
      && LayerIndex(layers, layers[j].nodes[k]) == j
      && layers[j].nodes[k] !in layers[j].nodes[..k]
  }

  /** In disjoint layers, no member of layer `j` is a member of layer `i`, for `i != j`. */
  lemma LayerApartFrom(layers: seq<Layer>, i: nat, j: nat)
    requires DisjointLayers(layers)
    requires i < |layers| && j < |layers| && i != j
    ensures forall x | x in layers[j].nodes :: x !in layers[i].nodes
  {
    forall x | x in layers[j].nodes
      ensures x !in layers[i].nodes
    {
      LayersApart(layers, j, i, x);
    }
  }

  /** Every id held by some layer. */
  ghost function LayerIds(layers: seq<Layer>): set<Id> {
    set j, k | 0 <= j < |layers| && 0 <= k < |layers[j].nodes| :: layers[j].nodes[k]
  }

  /**
    Every in-edge of a node of layer `j` comes from a node of layer `j - 1`;
    in particular a node of the first layer has no in-edges.
   */
  ghost predicate FedByPrevious(net: Network)
    requires WellIndexed(net) && LayersResolve(net)
  {
    forall j, k, i |
      && 0 <= j < |net.layers| && 0 <= k < |net.layers[j].nodes|
      && 0 <= i < |net.nodes[net.layers[j].nodes[k]].ins|
      :: j > 0 && net.edges[net.nodes[net.layers[j].nodes[k]].ins[i]].from in net.layers[j - 1].nodes
  }

  /** A node of the first layer of a network fed layer by layer has no in-edges. */
  lemma FirstLayerUnfed(net: Network, j: nat, k: nat)
    requires WellIndexed(net) && LayersResolve(net) && FedByPrevious(net)
    requires j < |net.layers| && k < |net.layers[j].nodes|
    ensures j == 0 ==> net.nodes[net.layers[j].nodes[k]].ins == []
  {
    var ins := net.nodes[net.layers[j].nodes[k]].ins;
    if |ins| > 0 {
      assert net.edges[net.nodes[net.layers[j].nodes[k]].ins[0]].from == net.edges[ins[0]].from;
    }
  }

  /** A strictly layered network: the layers resolve, are disjoint, and each is fed by the one before. */
  ghost predicate Layered(net: Network) {
    && WellIndexed(net)
    && LayersResolve(net)
    && DisjointLayers(net.layers)
    && FedByPrevious(net)
  }

  /** The layered shape is about nodes, edges and layers only: it does not look at the node lists. */
  lemma ShapeOnGraph(a: Network, b: Network)
    requires a.nodes == b.nodes && a.edges == b.edges && a.layers == b.layers
    ensures Layered(a) ==> Layered(b)
    ensures Layered(a) && FullyConnected(a) ==> FullyConnected(b)
  {
  }

  /** A node listed in two layers of disjoint layers is listed in one only. */
  lemma LayersApart(layers: seq<Layer>, i: nat, j: nat, id: Id)
    requires DisjointLayers(layers)
    requires i < |layers| && j < |layers| && i != j && id in layers[i].nodes
    ensures id !in layers[j].nodes
  {
    LayerOfMember(layers, i, id);
    if id in layers[j].nodes {
      LayerOfMember(layers, j, id);
    }
  }

  /**
    Full bipartite wiring: the in-edges of every node of layer `j > 0` come
    from the nodes of layer `j - 1`, one edge each, in that layer's order.
   */
  ghost predicate FullyConnected(net: Network)
    requires WellIndexed(net) && LayersResolve(net)
  {
    forall j, k | 1 <= j < |net.layers| && 0 <= k < |net.layers[j].nodes| ::
      Sources(net.edges, net.nodes[net.layers[j].nodes[k]].ins) == net.layers[j - 1].nodes
  }

  /**
    The shape of a generated network: consistent, layered and fully wired,
    with every node in some layer.
   */
  ghost predicate Generated(net: Network) {
    && Consistent(net)
    && Layered(net)
    && FullyConnected(net)
    && net.nodes.Keys == LayerIds(net.layers)
  }

  /** The number of edges full wiring between consecutive layers needs. */
  ghost function EdgeTotal(layers: seq<Layer>): nat {
    if |layers| < 2 then 0
    else EdgeTotal(layers[..|layers| - 1]) + |layers[|layers| - 2].nodes| * |layers[|layers| - 1].nodes|
  }

  /** Every edge goes from a node of some layer to a node of the next one. */
  lemma EdgeGoesForward(net: Network, e: nat)
    requires Generated(net) && e < |net.edges|
    ensures exists j :: 1 <= j < |net.layers| && net.edges[e].from in net.layers[j - 1].nodes && net.edges[e].to in net.layers[j].nodes
  {
    var j, i := InEdgeAt(net, e);
    assert Sources(net.edges, net.nodes[net.edges[e].to].ins)[i] == net.edges[e].from;
  }

  /** Each node of a layer is joined to each node of the next layer by some edge. */
  lemma EdgeForEachPair(net: Network, j: nat, ka: nat, kb: nat)
    requires Generated(net)
    requires 1 <= j < |net.layers| && ka < |net.layers[j - 1].nodes| && kb < |net.layers[j].nodes|
    ensures exists e :: 0 <= e < |net.edges| && net.edges[e].from == net.layers[j - 1].nodes[ka] && net.edges[e].to == net.layers[j].nodes[kb]
  {
    var b := net.layers[j].nodes[kb];
    var ins := net.nodes[b].ins;
    assert Sources(net.edges, ins) == net.layers[j - 1].nodes;
    var e := ins[ka];
    assert net.edges[e].from == net.layers[j - 1].nodes[ka];
  }

  /**
    In a generated network, edge `e` is listed at some position `i` of the
    in-edges of its target, which sits in layer `j > 0`; those in-edges come
    from layer `j - 1`, one per node.
   */
  lemma InEdgeAt(net: Network, e: nat) returns (j: nat, i: nat)
    requires Generated(net) && e < |net.edges|
    ensures 1 <= j < |net.layers| && net.edges[e].to in net.layers[j].nodes
    ensures net.edges[e].to in net.nodes && i < |net.nodes[net.edges[e].to].ins| && net.nodes[net.edges[e].to].ins[i] == e
    ensures Sources(net.edges, net.nodes[net.edges[e].to].ins) == net.layers[j - 1].nodes
  {
    var b := net.edges[e].to;
    assert b in LayerIds(net.layers);
    var k;
    j, k :| 0 <= j < |net.layers| && 0 <= k < |net.layers[j].nodes| && net.layers[j].nodes[k] == b;
    i :| 0 <= i < |net.nodes[b].ins| && net.nodes[b].ins[i] == e;
    assert j > 0 && net.edges[net.nodes[net.layers[j].nodes[k]].ins[i]].from in net.layers[j - 1].nodes;
  }

  /** In-edges read from a list without repeats start at different nodes. */
  lemma SourcesApart(edges: seq<Connection>, ins: seq<nat>, layer: seq<Id>, i1: nat, i2: nat)
    requires forall k | 0 <= k < |ins| :: ins[k] < |edges|
    requires Sources(edges, ins) == layer && NoDup(layer)
    requires i1 < |ins| && i2 < |ins| && edges[ins[i1]].from == edges[ins[i2]].from
    ensures i1 == i2
  {
    assert layer[i1] == layer[i2];
  }

  /** No two edges join the same pair of nodes. */
  lemma EdgeUniquePerPair(net: Network, e1: nat, e2: nat)
    requires Generated(net)
    requires e1 < |net.edges| && e2 < |net.edges|
    requires net.edges[e1].from == net.edges[e2].from && net.edges[e1].to == net.edges[e2].to
    ensures e1 == e2
  {
    var j, i1 := InEdgeAt(net, e1);
    var _, i2 := InEdgeAt(net, e2);
    LayerNoDup(net.layers, j - 1);
    SourcesApart(net.edges, net.nodes[net.edges[e1].to].ins, net.layers[j - 1].nodes, i1, i2);
  }

  /** The position of the last layer holding `id`, or -1 when none does. */
  ghost function LayerIndex(layers: seq<Layer>, id: Id): (r: int)
    ensures -1 <= r < |layers|
    ensures r >= 0 ==> id in layers[r].nodes
  {
    if |layers| == 0 then -1
    else if id in layers[|layers| - 1].nodes then |layers| - 1
    else LayerIndex(layers[..|layers| - 1], id)
  }

  /** In disjoint layers, a node is in exactly one layer. */
  lemma LayerOfMember(layers: seq<Layer>, j: nat, id: Id)
    requires DisjointLayers(layers)
    requires j < |layers| && id in layers[j].nodes
    ensures LayerIndex(layers, id) == j
  {
    var k :| 0 <= k < |layers[j].nodes| && layers[j].nodes[k] == id;
  }

  /** In disjoint layers, no layer lists a node twice. */
  lemma LayerNoDup(layers: seq<Layer>, j: nat)
    requires DisjointLayers(layers) && j < |layers|
    ensures NoDup(layers[j].nodes)
  {
    forall a, b | 0 <= a < b < |layers[j].nodes|
      ensures layers[j].nodes[a] != layers[j].nodes[b]
    {
      assert layers[j].nodes[a] in layers[j].nodes[..b];
    }
  }

  /** Along every edge the layer index goes up by exactly one. */
  lemma EdgeRaisesLayer(net: Network, e: nat)
    requires Generated(net) && e < |net.edges|
    ensures LayerIndex(net.layers, net.edges[e].to) == LayerIndex(net.layers, net.edges[e].from) + 1
  {
    EdgeGoesForward(net, e);
    var j :| 1 <= j < |net.layers| && net.edges[e].from in net.layers[j - 1].nodes && net.edges[e].to in net.layers[j].nodes;
    NextLayerIndex(net.layers, j, net.edges[e].from, net.edges[e].to);
  }

  /** In disjoint layers, a member of layer `j` sits one layer above a member of layer `j - 1`. */
  lemma NextLayerIndex(layers: seq<Layer>, j: nat, a: Id, b: Id)
    requires DisjointLayers(layers) && 1 <= j < |layers|
    requires a in layers[j - 1].nodes && b in layers[j].nodes
    ensures LayerIndex(layers, b) == LayerIndex(layers, a) + 1
  {
    LayerOfMember(layers, j - 1, a);
    LayerOfMember(layers, j, b);
  }

  /** A non-empty walk along edges, each edge starting where the previous one ends. */
  ghost predicate IsPath(net: Network, p: seq<nat>) {
    && |p| > 0
    && (forall i | 0 <= i < |p| :: p[i] < |net.edges|)
    && (forall i | 0 <= i < |p| - 1 :: net.edges[p[i]].to == net.edges[p[i + 1]].from)
  }

  /** A walk of `n` edges climbs exactly `n` layers. */
  lemma {:induction false} PathRaisesLayer(net: Network, p: seq<nat>)
    requires Generated(net) && IsPath(net, p)
    ensures LayerIndex(net.layers, net.edges[p[|p| - 1]].to) == LayerIndex(net.layers, net.edges[p[0]].from) + |p|
    decreases |p|
  {
    EdgeRaisesLayer(net, p[|p| - 1]);
    if |p| > 1 {
      var front := p[..|p| - 1];
      assert IsPath(net, front);
      PathRaisesLayer(net, front);
    }
  }

  /** The generated graph is acyclic: no walk along edges returns to where it started. */
  lemma NoCycles(net: Network, p: seq<nat>)
    requires Generated(net) && IsPath(net, p)
    ensures net.edges[p[|p| - 1]].to != net.edges[p[0]].from
  {
    PathRaisesLayer(net, p);
  }
}

=== FILE: network.dfy ===
/**
  The evaluation side of `Network` and `Network.Layer`: `ActivateNodes`,
  `Run`, `GetOutput` and `TestFitness`.
 */
module Networks {
  import opened Rounding
  import opened Utils
  import opened Graph
  import opened Nodes

  /** Every source id read by the in-edges of the listed nodes names a node. */
  ghost predicate SourcesResolve(net: Network, ids: seq<Id>)
    requires WellIndexed(net)
    requires forall k | 0 <= k < |ids| :: ids[k] in net.nodes
  {
    forall k, i | 0 <= k < |ids| && 0 <= i < |net.nodes[ids[k]].ins| ::
      net.edges[net.nodes[ids[k]].ins[i]].from in net.nodes
  }

  lemma SourcesResolveSame(a: Network, b: Network, ids: seq<Id>)
    requires WellIndexed(a) && SameExceptActivations(a, b)
    requires forall k | 0 <= k < |ids| :: ids[k] in a.nodes
    ensures WellIndexed(b)
    ensures SourcesResolve(a, ids) <==> SourcesResolve(b, ids)
  {
    SameExceptActivationsKeepsConsistent(a, b);
    assert forall k | 0 <= k < |ids| :: a.nodes[ids[k]].ins == b.nodes[ids[k]].ins;
  }

  lemma SourcesResolveCons(net: Network, ids: seq<Id>)
    requires WellIndexed(net) && |ids| > 0
    requires forall k | 0 <= k < |ids| :: ids[k] in net.nodes
    ensures SourcesResolve(net, ids) <==>
      && (forall i | 0 <= i < |net.nodes[ids[0]].ins| :: net.edges[net.nodes[ids[0]].ins[i]].from in net.nodes)
      && SourcesResolve(net, ids[1..])
  {
    if SourcesResolve(net, ids[1..]) {
      forall k, i | 1 <= k < |ids| && 0 <= i < |net.nodes[ids[k]].ins|
        ensures net.edges[net.nodes[ids[k]].ins[i]].from in net.nodes
      {
        assert ids[k] == ids[1..][k - 1];
      }
    }
  }

  lemma ActivateNodesStep(net: Network, n1: Network, ids: seq<Id>)
    requires WellIndexed(net) && |ids| > 0
    requires forall k | 0 <= k < |ids| :: ids[k] in net.nodes
    requires Activate(net, ids[0]) == Ok(n1)
    ensures WellIndexed(n1)
    ensures forall k | 0 <= k < |ids| - 1 :: ids[1..][k] in n1.nodes
    ensures SourcesResolve(net, ids) <==> SourcesResolve(n1, ids[1..])
    ensures forall id | id in net.nodes && id != ids[0] :: n1.nodes[id] == net.nodes[id]
    ensures n1.nodes.Keys == net.nodes.Keys
  {
    var rest := ids[1..];
    assert SameExceptActivations(net, n1);
    assert forall k | 0 <= k < |rest| :: rest[k] in net.nodes;
    SourcesResolveCons(net, ids);
    SourcesResolveSame(net, n1, rest);
  }

  /**
    `layer.ActivateNodes()`: activates the listed nodes one after another, in
    list order. It fails exactly when one of them reads an absent source.
   */
  function ActivateNodes(net: Network, ids: seq<Id>): (r: Result<Network>)
    requires WellIndexed(net)
    requires forall k | 0 <= k < |ids| :: ids[k] in net.nodes
    ensures r.Ok? <==> SourcesResolve(net, ids)
    ensures r.Err? ==> r.error.KeyNotFound? && r.error.key !in net.nodes
    ensures r.Ok? ==> SameExceptActivations(net, r.value)
    ensures r.Ok? ==> forall id | id in net.nodes && id !in ids :: r.value.nodes[id] == net.nodes[id]
    decreases |ids|
  {
    if |ids| == 0 then Ok(net)
    else
      SourcesResolveCons(net, ids);
      match Activate(net, ids[0])
      case Err(e) => Err(e)
      case Ok(n1) =>
        ActivateNodesStep(net, n1, ids);
        match ActivateNodes(n1, ids[1..])
        case Err(e) => Err(e)
        case Ok(n2) =>
          SameExceptActivationsTransitive(net, n1, n2);
          Ok(n2)
  }

  /** Once its first node activates, `ActivateNodes` goes on with the rest of the list. */
  lemma ActivateNodesHead(net: Network, ids: seq<Id>)
    requires WellIndexed(net) && |ids| > 0
    requires forall k | 0 <= k < |ids| :: ids[k] in net.nodes
    requires Activate(net, ids[0]).Ok?
    ensures WellIndexed(Activate(net, ids[0]).value)
    ensures forall k | 0 <= k < |ids| - 1 :: ids[1..][k] in Activate(net, ids[0]).value.nodes
    ensures ActivateNodes(net, ids) == ActivateNodes(Activate(net, ids[0]).value, ids[1..])
  {
    ActivateNodesStep(net, Activate(net, ids[0]).value, ids);
  }

  /** Every in-edge of every node of layers `j..` reads a source that exists. */
  ghost predicate LayerSourcesResolve(net: Network, j: nat)
    requires WellIndexed(net) && LayersResolve(net)
  {
    forall i | j <= i < |net.layers| :: SourcesResolve(net, net.layers[i].nodes)
  }

  lemma LayerSourcesResolveSame(a: Network, b: Network, j: nat)
    requires WellIndexed(a) && LayersResolve(a) && SameExceptActivations(a, b)
    ensures WellIndexed(b) && LayersResolve(b)
    ensures LayerSourcesResolve(a, j) <==> LayerSourcesResolve(b, j)
  {
    SameExceptActivationsKeepsConsistent(a, b);
    forall i | j <= i < |a.layers|
      ensures SourcesResolve(a, a.layers[i].nodes) <==> SourcesResolve(b, b.layers[i].nodes)
    {
      SourcesResolveSame(a, b, a.layers[i].nodes);
    }
  }

  /** The loop of `Network.Run` from layer `j` on: each layer's nodes are activated, layers in ascending order. */
  function RunFrom(net: Network, j: nat): (r: Result<Network>)
    requires WellIndexed(net) && LayersResolve(net) && j <= |net.layers|
    ensures r.Ok? <==> LayerSourcesResolve(net, j)
    ensures r.Err? ==> r.error.KeyNotFound? && r.error.key !in net.nodes
    ensures r.Ok? ==> SameExceptActivations(net, r.value)
    decreases |net.layers| - j
  {
    if j == |net.layers| then Ok(net)
    else
      match ActivateNodes(net, net.layers[j].nodes)
      case Err(e) => Err(e)
      case Ok(n1) =>
        LayerSourcesResolveSame(net, n1, j + 1);
        match RunFrom(n1, j + 1)
        case Err(e) => Err(e)
        case Ok(n2) =>
          SameExceptActivationsTransitive(net, n1, n2);
          Ok(n2)
  }

  /** Once layer `j` activates, `RunFrom` goes on with the next layer. */
  lemma RunFromHead(net: Network, j: nat)
    requires WellIndexed(net) && LayersResolve(net) && j < |net.layers|
    requires ActivateNodes(net, net.layers[j].nodes).Ok?
    ensures WellIndexed(ActivateNodes(net, net.layers[j].nodes).value)
    ensures LayersResolve(ActivateNodes(net, net.layers[j].nodes).value)
    ensures RunFrom(net, j) == RunFrom(ActivateNodes(net, net.layers[j].nodes).value, j + 1)
  {
    var n1 := ActivateNodes(net, net.layers[j].nodes).value;
    LayerSourcesResolveSame(net, n1, j + 1);
  }

  /**
    `network.Run()`: the forward pass. It changes activations only, and it
    fails exactly when some layer node reads an absent source.
   */
  function Run(net: Network): (r: Result<Network>)
    requires WellIndexed(net) && LayersResolve(net)
    ensures r.Ok? <==> LayerSourcesResolve(net, 0)
    ensures r.Err? ==> r.error.KeyNotFound? && r.error.key !in net.nodes
    ensures r.Ok? ==> SameExceptActivations(net, r.value)
  {
    RunFrom(net, 0)
  }

  /** The unrounded sum of the listed nodes' activations, accumulated in list order. */
  function ActivationSum(net: Network, ids: seq<Id>): (r: real)
    requires forall k | 0 <= k < |ids| :: ids[k] in net.nodes
    ensures |ids| == 1 ==> r == net.nodes[ids[0]].activation
    ensures (forall k | 0 <= k < |ids| :: net.nodes[ids[k]].activation >= 0.0) ==> r >= 0.0
    decreases |ids|
  {
    if |ids| == 0 then 0.0
    else ActivationSum(net, ids[..|ids| - 1]) + net.nodes[ids[|ids| - 1]].activation
  }

  /** Summing a list in one pass gives the sum over its first part plus the sum over the rest. */
  lemma {:induction false} ActivationSumAppend(net: Network, a: seq<Id>, b: seq<Id>)
    requires forall k | 0 <= k < |a| :: a[k] in net.nodes
    requires forall k | 0 <= k < |b| :: b[k] in net.nodes
    ensures forall k | 0 <= k < |a + b| :: (a + b)[k] in net.nodes
    ensures ActivationSum(net, a + b) == ActivationSum(net, a) + ActivationSum(net, b)
    decreases |b|
  {
    if |b| > 0 {
      var c := b[..|b| - 1];
      assert (a + b)[..|a + b| - 1] == a + c;
      ActivationSumAppend(net, a, c);
    } else {
      assert a + b == a;
    }
  }

  /** The output nodes are all nodes of the network. */
  ghost predicate OutputsResolve(net: Network) {
    forall k | 0 <= k < |net.outputNodes| :: net.outputNodes[k] in net.nodes
  }

  /**
    `network.GetOutput()`: the sum of the output nodes' activations, rounded
    to three decimals; zero for a network without output nodes.
   */
  function GetOutput(net: Network): (r: real)
    requires OutputsResolve(net)
    ensures IsThousandths(r)
    ensures -0.0005 <= r - ActivationSum(net, net.outputNodes) <= 0.0005
    ensures net.outputNodes == [] ==> r == 0.0
  {
    var sum := ActivationSum(net, net.outputNodes);
    Round3(sum)
  }

  /**
    `network.TestFitness(target)`: the absolute error of the output, rounded
    to three decimals. It is never negative, and it is zero exactly when the
    output lies within half a thousandth of the target; for a target given
    to three decimals, exactly when the output equals the target.
   */
  function TestFitness(net: Network, target: real): (r: real)
    requires OutputsResolve(net)
    ensures r >= 0.0
    ensures IsThousandths(r)
    ensures r == 0.0 <==> Abs(target - GetOutput(net)) <= 0.0005
    ensures IsThousandths(target) ==> (r == 0.0 <==> target == GetOutput(net))
    ensures -0.0005 <= r - Abs(target - GetOutput(net)) <= 0.0005
    ensures r == Round3(Abs(target - GetOutput(net)))
  {
    var difference := Abs(target - GetOutput(net));
    RoundPositiveIff(difference);
    RoundNegativeIff(difference);
    ThousandthsDifference(target, GetOutput(net));
    Round3(difference)
  }

  /** Two whole numbers of thousandths within half a thousandth of each other are equal. */
  lemma ThousandthsDifference(x: real, y: real)
    ensures IsThousandths(x) && IsThousandths(y) && Abs(x - y) <= 0.0005 ==> x == y
  {
    if !(IsThousandths(x) && IsThousandths(y)) {
      return;
    }
    var a, b := (x * 1000.0).Floor, (y * 1000.0).Floor;
    assert x * 1000.0 - y * 1000.0 == (a - b) as real;
  }

  /** The fitness depends only on the distance between target and output, not on its sign. */
  lemma TestFitnessSymmetric(net: Network, d: real)
    requires OutputsResolve(net)
    ensures TestFitness(net, GetOutput(net) + d) == TestFitness(net, GetOutput(net) - d)
  {
  }
}

=== FILE: node.dfy ===
/**
  The operations of `Node`: construction, `Connect`, `Activate` and `Mutate`,
  and the weight initialization of a new `Connection`.

  Each operation takes the whole network and returns the updated one: a C#
  node reaches its network through its `Network` back-reference, and the
  connections it shares with other nodes live in the network's edge sequence.
 */
module Nodes {
  import opened Rounding
  import opened Utils
  import opened Graph

  /** `new Connection(from, to, weight)`: a zero weight is replaced by a fresh draw. */
  function NewConnection(from: Id, to: Id, weight: real, rng: Rng): (r: (Connection, Rng))
    ensures r.0.from == from && r.0.to == to
    ensures weight != 0.0 ==> r.0.weight == weight && r.1 == rng
    ensures weight == 0.0 ==> -1.0 <= r.0.weight <= 1.0 && r.1 == rng.Skip(2)
    ensures (r.0.weight, r.1) == InitializeWeightOrBias(weight, rng)
  {
    var (w, rng') := InitializeWeightOrBias(weight, rng);
    (Connection(from, to, w), rng')
  }

  /**
    The serialization constructor `Node(inConnections, network, bias)` with an
    empty in-list, as every caller passes one: no edges, activation 0, and
    the bias initialized (a zero bias replaced by a fresh draw).
   */
  function NewNode(id: Id, bias: real, rng: Rng): (r: (Node, Rng))
    ensures r.0.id == id && r.0.activation == 0.0
    ensures r.0.outs == [] && r.0.ins == []
    ensures bias != 0.0 ==> r.0.bias == bias && r.1 == rng
    ensures bias == 0.0 ==> -1.0 <= r.0.bias <= 1.0 && r.1 == rng.Skip(2)
    ensures (r.0.bias, r.1) == InitializeWeightOrBias(bias, rng)
  {
    var (b, rng') := InitializeWeightOrBias(bias, rng);
    (Node(id, b, 0.0, [], []), rng')
  }

  /**
    `new InputNode(inputValue, network, bias)`: it goes through the other
    constructor `Node(bias, network)`, which keeps the bias exactly as given
    (no initialization), and then sets the activation to the input value.
   */
  function NewInputNode(id: Id, inputValue: real, bias: real): (r: Node)
    ensures r.id == id && r.bias == bias && r.activation == inputValue
    ensures r.outs == [] && r.ins == []
  {
    Node(id, bias, inputValue, [], [])
  }

  /** `new OutputNode(inConnections, network)`: the serialization constructor with a zero bias. */
  function NewOutputNode(id: Id, rng: Rng): (r: (Node, Rng))
    ensures r.0.id == id && r.0.activation == 0.0
    ensures r.0.outs == [] && r.0.ins == []
    ensures -1.0 <= r.0.bias <= 1.0 && r.0.bias == InitializeWeightOrBias(0.0, rng).0
    ensures r.1 == rng.Skip(2)
  {
    NewNode(id, 0.0, rng)
  }

  /**
    What one `Connect` step from `a` to `b` does to the network: the new
    edge is appended to the edges and its index to the out-list of `a` and
    the in-list of `b`; no other node changes.
   */
  ghost predicate ConnectStep(net: Network, n: Network, a: Id, b: Id) {
    && a in net.nodes && b in net.nodes
    && |n.edges| == |net.edges| + 1 && n.edges[..|net.edges|] == net.edges
    && n.edges[|net.edges|].from == a && n.edges[|net.edges|].to == b
    && n.nodes.Keys == net.nodes.Keys
    && n.nodes[a].outs == net.nodes[a].outs + [|net.edges|]
    && n.nodes[b].ins == net.nodes[b].ins + [|net.edges|]
    && (a != b ==> n.nodes[a].ins == net.nodes[a].ins && n.nodes[b].outs == net.nodes[b].outs)
    && (forall id | id in net.nodes && id != a && id != b :: n.nodes[id] == net.nodes[id])
    && (forall id | id in net.nodes :: n.nodes[id].id == net.nodes[id].id)
  }

  /**
    `a.Connect(b, weight)`: one new edge from `a` to `b`, appended to the
    out-list of `a` and to the in-list of `b`. The weight argument goes through
    `InitializeWeightOrBias` once in `Connect` and once more in the
    `Connection` constructor.
   */
  function Connect(net: Network, a: Id, b: Id, weight: real, rng: Rng): (r: (Network, Rng))
    requires a in net.nodes && b in net.nodes
    ensures ConnectStep(net, r.0, a, b)
    ensures var w := r.0.edges[|net.edges|].weight;
      && (weight != 0.0 ==> w == weight)
      && (weight == 0.0 ==> -1.0 <= w <= 1.0)
    ensures var (w, s) := InitializeWeightOrBias(weight, rng);
      (r.0.edges[|net.edges|].weight, r.1) == InitializeWeightOrBias(w, s)
    ensures forall id | id in net.nodes ::
      r.0.nodes[id].bias == net.nodes[id].bias && r.0.nodes[id].activation == net.nodes[id].activation
    ensures r.0.inputNodes == net.inputNodes && r.0.outputNodes == net.outputNodes && r.0.layers == net.layers
    ensures Consistent(net) ==> Consistent(r.0)
  {
    var (w, rng1) := InitializeWeightOrBias(weight, rng);
    var (edge, rng2) := NewConnection(a, b, w, rng1);
    var e := |net.edges|;
    var m1 := net.nodes[a := net.nodes[a].(outs := net.nodes[a].outs + [e])];
    var m2 := m1[b := m1[b].(ins := m1[b].ins + [e])];
    var n := net.(nodes := m2, edges := net.edges + [edge]);
    ConnectKeepsConsistent(net, n, a, b);
    (n, rng2)
  }

  lemma ConnectKeepsConsistent(net: Network, n: Network, a: Id, b: Id)
    requires ConnectStep(net, n, a, b)
    ensures Consistent(net) ==> Consistent(n)
  {
    if Consistent(net) {
      ConnectKeepsEdgesListed(net, n, a, b);
      ConnectKeepsOuts(net, n, a, b);
      ConnectKeepsIns(net, n, a, b);
    }
  }

  lemma ConnectKeepsEdgesListed(net: Network, n: Network, a: Id, b: Id)
    requires ConnectStep(net, n, a, b) && EdgesListed(net)
    ensures EdgesListed(n)
  {
    var e := |net.edges|;
    forall f | 0 <= f < |n.edges|
      ensures && n.edges[f].from in n.nodes && n.edges[f].to in n.nodes
              && f in n.nodes[n.edges[f].from].outs && f in n.nodes[n.edges[f].to].ins
    {
      if f < e {
        assert n.edges[f] == net.edges[f];
        var x, y := net.edges[f].from, net.edges[f].to;
        assert f in net.nodes[x].outs && f in net.nodes[y].ins;
        assert net.nodes[x].outs <= n.nodes[x].outs;
        assert net.nodes[y].ins <= n.nodes[y].ins;
      } else {
        assert n.nodes[a].outs[|n.nodes[a].outs| - 1] == f;
        assert n.nodes[b].ins[|n.nodes[b].ins| - 1] == f;
      }
    }
  }

  lemma ConnectKeepsOuts(net: Network, n: Network, a: Id, b: Id)
    requires ConnectStep(net, n, a, b) && WellIndexed(net) && OutsStartHere(net)
    ensures OutsStartHere(n)
  {
    forall id, k | id in n.nodes && 0 <= k < |n.nodes[id].outs|
      ensures n.nodes[id].outs[k] < |n.edges| && n.edges[n.nodes[id].outs[k]].from == id
    {
      if id == a && k == |net.nodes[a].outs| {
      } else {
        assert n.nodes[id].outs[k] == net.nodes[id].outs[k];
        assert n.edges[net.nodes[id].outs[k]] == net.edges[net.nodes[id].outs[k]];
      }
    }
  }

  lemma ConnectKeepsIns(net: Network, n: Network, a: Id, b: Id)
    requires ConnectStep(net, n, a, b) && WellIndexed(net) && InsEndHere(net)
    ensures InsEndHere(n)
  {
    forall id, k | id in n.nodes && 0 <= k < |n.nodes[id].ins|
      ensures n.nodes[id].ins[k] < |n.edges| && n.edges[n.nodes[id].ins[k]].to == id
    {
      if id == b && k == |net.nodes[b].ins| {
      } else {
        assert n.nodes[id].ins[k] == net.nodes[id].ins[k];
        assert n.edges[net.nodes[id].ins[k]] == net.edges[net.nodes[id].ins[k]];
      }
    }
  }

  /**
    The accumulation loop of `Activate`: weight times source activation over
    the in-list, in list order, looking each source up by id. An absent source
    id raises `KeyNotFound` (it is never read as zero).
   */
  function InputSum(net: Network, list: seq<nat>): (r: Result<real>)
    requires forall k | 0 <= k < |list| :: list[k] < |net.edges|
    ensures r.Ok? <==> forall k | 0 <= k < |list| :: net.edges[list[k]].from in net.nodes
    ensures r.Err? ==> r.error.KeyNotFound? && r.error.key !in net.nodes
    decreases |list|
  {
    if |list| == 0 then Ok(0.0)
    else
      match InputSum(net, list[..|list| - 1])
      case Err(e) => Err(e)
      case Ok(sum) =>
        var edge := net.edges[list[|list| - 1]];
        if edge.from in net.nodes then Ok(sum + edge.weight * net.nodes[edge.from].activation)
        else Err(KeyNotFound(edge.from))
  }

  /** Peeling the last term off the weighted input. */
  lemma {:induction false} DotSnoc(edges: seq<Connection>, list: seq<nat>, acts: map<Id, real>)
    requires |list| > 0
    ensures Dot(edges, list, acts) == Dot(edges, list[..|list| - 1], acts) + Term(edges, list[|list| - 1], acts)
    decreases |list|
  {
    if |list| > 1 {
      DotSnoc(edges, list[1..], acts);
      assert list[1..][..|list| - 2] == list[..|list| - 1][1..];
    }
  }

  /** The accumulation loop computes the weighted input over the current activations. */
  lemma {:induction false} InputSumIsDot(net: Network, list: seq<nat>)
    requires forall k | 0 <= k < |list| :: list[k] < |net.edges| && net.edges[list[k]].from in net.nodes
    ensures InputSum(net, list) == Ok(Dot(net.edges, list, Activations(net)))
    decreases |list|
  {
    if |list| > 0 {
      var prefix := list[..|list| - 1];
      var acts := Activations(net);
      InputSumIsDot(net, prefix);
      DotSnoc(net.edges, list, acts);
      var edge := net.edges[list[|list| - 1]];
      assert Term(net.edges, list[|list| - 1], acts) == edge.weight * net.nodes[edge.from].activation;
      assert InputSum(net, list).value == InputSum(net, prefix).value + edge.weight * net.nodes[edge.from].activation;
    }
  }

  /**
    `node.Activate()`: the node's activation becomes the leaky ReLU of its
    weighted input plus its bias. Nothing else changes.
   */
  function Activate(net: Network, id: Id): (r: Result<Network>)
    requires id in net.nodes && WellIndexed(net)
    ensures var ins := net.nodes[id].ins;
      r.Ok? <==> forall k | 0 <= k < |ins| :: net.edges[ins[k]].from in net.nodes
    ensures r.Err? ==> r.error.KeyNotFound? && r.error.key !in net.nodes
    ensures r.Ok? ==> SameExceptActivations(net, r.value)
    ensures r.Ok? ==> forall other | other in net.nodes && other != id :: r.value.nodes[other] == net.nodes[other]
    ensures r.Ok? ==>
      r.value.nodes[id].activation
        == LeakyRelu(Dot(net.edges, net.nodes[id].ins, Activations(net)) + net.nodes[id].bias)
  {
    var node := net.nodes[id];
    match InputSum(net, node.ins)
    case Err(e) => Err(e)
    case Ok(sum) =>
      InputSumIsDot(net, node.ins);
      Ok(net.(nodes := net.nodes[id := node.(activation := LeakyRelu(sum + node.bias))]))
  }

  /** A node without in-edges (every input node) activates to the leaky ReLU of its bias alone. */
  lemma ActivateWithoutInputs(net: Network, id: Id)
    requires id in net.nodes && WellIndexed(net)
    requires net.nodes[id].ins == []
    ensures Activate(net, id).Ok?
    ensures Activate(net, id).value.nodes[id].activation == LeakyRelu(net.nodes[id].bias)
  {
  }

  /**
    The outcome of the two random choices in `Mutate`: `random.Next(0, 2)`
    picked the bias (0) or the weight (1) branch, and in the weight branch
    `random.Next(0, OutConnections.Count)` returned `pick`.
   */
  datatype Mutation = MutateBias | MutateWeight(pick: nat)

  /** What `Random.Next(0, count)` can return: a value below `count`, or 0 when `count` is 0. */
  predicate ValidMutation(m: Mutation, outCount: nat) {
    m.MutateWeight? ==> m.pick < outCount || m.pick == 0
  }

  /** The out-list position the weight branch writes: the pick cast to `byte`. */
  function MutatedPosition(pick: nat): (p: nat)
    ensures p < 256
    ensures pick < 256 ==> p == pick
  {
    pick % 256
  }

  /**
    `node.Mutate()`: the bias branch replaces the bias with a fresh draw; the
    weight branch replaces the weight of one out-edge with a fresh draw, and
    raises an index error when the node has no out-edges.
   */
  function Mutate(net: Network, id: Id, m: Mutation, rng: Rng): (r: Result<(Network, Rng)>)
    requires id in net.nodes && WellIndexed(net)
    requires ValidMutation(m, |net.nodes[id].outs|)
    ensures r.Err? <==> m.MutateWeight? && net.nodes[id].outs == []
    ensures r.Err? ==> r.error == ArgumentOutOfRange
    ensures r.Ok? ==> SameTopology(net, r.value.0) && r.value.1 == rng.Skip(2)
    ensures r.Ok? && m.MutateBias? ==>
      var n := r.value.0;
      && n.edges == net.edges
      && n.nodes == net.nodes[id := net.nodes[id].(bias := n.nodes[id].bias)]
      && -1.0 <= n.nodes[id].bias <= 1.0
      && n.nodes[id].bias == InitializeWeightOrBias(0.0, rng).0
    ensures r.Ok? && m.MutateWeight? ==>
      var n := r.value.0;
      var p := MutatedPosition(m.pick);
      && p < |net.nodes[id].outs|
      && var e := net.nodes[id].outs[p];
      && n.nodes == net.nodes
      && n.edges == net.edges[e := net.edges[e].(weight := n.edges[e].weight)]
      && -1.0 <= n.edges[e].weight <= 1.0
      && n.edges[e].weight == InitializeWeightOrBias(0.0, rng).0
  {
    var node := net.nodes[id];
    match m
    case MutateBias =>
      var (b, rng') := InitializeWeightOrBias(0.0, rng);
      Ok((net.(nodes := net.nodes[id := node.(bias := b)]), rng'))
    case MutateWeight(pick) =>
      var p := MutatedPosition(pick);
      var (w, rng') := InitializeWeightOrBias(0.0, rng);
      if p < |node.outs| then
        var e := node.outs[p];
        Ok((net.(edges := net.edges[e := net.edges[e].(weight := w)]), rng'))
      else
        Err(ArgumentOutOfRange)
  }

  /**
    Only the first 256 out-edges can be mutated: an out-edge at position 256
    or later that does not also sit among the first 256 keeps its weight.
   */
  lemma MutateReachesOnlyFirst256(net: Network, id: Id, m: Mutation, rng: Rng, q: nat)
    requires id in net.nodes && WellIndexed(net)
    requires ValidMutation(m, |net.nodes[id].outs|)
    requires 256 <= q < |net.nodes[id].outs|
    requires net.nodes[id].outs[q] !in net.nodes[id].outs[..256]
    ensures Mutate(net, id, m, rng).Ok?
    ensures Mutate(net, id, m, rng).value.0.edges[net.nodes[id].outs[q]] == net.edges[net.nodes[id].outs[q]]
  {
    if m.MutateWeight? {
      var p := MutatedPosition(m.pick);
      assert net.nodes[id].outs[p] in net.nodes[id].outs[..256];
    }
  }

  /**
    The edge the weight branch writes through the node's out-list is the
    very edge its target reads in `Activate`: it starts at the mutated node
    and is listed among the target's in-edges.
   */
  lemma MutatedEdgeIsSharedWithTarget(net: Network, id: Id, pick: nat, rng: Rng)
    requires id in net.nodes && Consistent(net)
    requires ValidMutation(MutateWeight(pick), |net.nodes[id].outs|)
    requires net.nodes[id].outs != []
    ensures var e := net.nodes[id].outs[MutatedPosition(pick)];
      var n := Mutate(net, id, MutateWeight(pick), rng).value.0;
      && n.edges[e].from == id
      && e in n.nodes[n.edges[e].to].ins
  {
  }

  /** Mutation keeps the connection-consistency invariant. */
  lemma MutateKeepsConsistent(net: Network, id: Id, m: Mutation, rng: Rng)
    requires id in net.nodes && Consistent(net)
    requires ValidMutation(m, |net.nodes[id].outs|)
    ensures Mutate(net, id, m, rng).Ok? ==> Consistent(Mutate(net, id, m, rng).value.0)
  {
  }
}

=== FILE: rounding.dfy ===
/**
  Rounding to three decimal places, as `Math.Round(value, 3)` does it.

  The source calls `Math.Round` without a midpoint argument, so a value that
  lies exactly half-way between two thousandths goes to the one whose last
  digit is even. Single-precision representation error is not modelled: the
  value is an exact real.
 */
module Rounding {

  /** True when `x` is a whole number of thousandths. */
  predicate IsThousandths(x: real) {
    (x * 1000.0).Floor as real == x * 1000.0
  }

  /** The whole number of thousandths `Math.Round(x, 3)` lands on. */
  function RoundedThousandths(x: real): int {
    var y := x * 1000.0;
    var f := y.Floor;
    var frac := y - f as real;
    if frac < 0.5 then f
    else if frac > 0.5 then f + 1
    else if f % 2 == 0 then f
    else f + 1
  }

  /**
    `Math.Round(x, 3)` on exact reals: a whole number of thousandths at most
    half a thousandth away from `x`.
   */
  function Round3(x: real): (r: real)
    ensures IsThousandths(r)
    ensures -0.0005 <= r - x <= 0.0005
  {
    var n := RoundedThousandths(x);
    assert (n as real / 1000.0) * 1000.0 == n as real;
    assert (n as real).Floor == n;
    n as real / 1000.0
  }

  function Abs(x: real): real {
    if x < 0.0 then -x else x
  }

  /** No whole number of thousandths lies closer to `x` than its rounding does. */
  lemma RoundNearest(x: real, t: real)
    requires IsThousandths(t)
    ensures Abs(Round3(x) - x) <= Abs(t - x)
  {
    var y := x * 1000.0;
    var f := y.Floor;
    var n := RoundedThousandths(x);
    var m := (t * 1000.0).Floor;
    assert m as real == t * 1000.0;
    assert Abs(n as real - y) <= y - f as real && Abs(n as real - y) <= f as real + 1.0 - y;
    if m <= f {
      assert Abs(m as real - y) >= y - f as real;
    } else {
      assert Abs(m as real - y) >= f as real + 1.0 - y;
    }
    assert Abs(Round3(x) - x) * 1000.0 == Abs(n as real - y);
    assert Abs(t - x) * 1000.0 == Abs(m as real - y);
  }

  /**
    A value half-way between two thousandths goes to the neighbour whose
    number of thousandths is even.
   */
  lemma RoundHalfToEven(x: real)
    requires IsThousandths(x + 0.0005)
    ensures Round3(x) == x - 0.0005 || Round3(x) == x + 0.0005
    ensures (Round3(x) * 1000.0).Floor % 2 == 0
  {
    var y := x * 1000.0;
    var f := y.Floor;
    var m := ((x + 0.0005) * 1000.0).Floor;
    assert m as real == y + 0.5;
    assert f == m - 1;
    var n := RoundedThousandths(x);
    assert n == f || n == f + 1;
    assert Round3(x) * 1000.0 == n as real;
    assert (n as real).Floor == n;
  }

  /** A whole number of thousandths is left as it is. */
  lemma RoundFixesThousandths(x: real)
    requires IsThousandths(x)
    ensures Round3(x) == x
  {
    var f := (x * 1000.0).Floor;
    assert RoundedThousandths(x) == f;
  }

  /** The rounded value is positive exactly when the value is above half a thousandth. */
  lemma RoundPositiveIff(x: real)
    ensures Round3(x) > 0.0 <==> x > 0.0005
  {
  }

  /** The rounded value is negative exactly when the value is below minus half a thousandth. */
  lemma RoundNegativeIff(x: real)
    ensures Round3(x) < 0.0 <==> x < -0.0005
  {
  }

  /** Rounding never reverses the order of two values. */
  lemma RoundMonotone(x: real, y: real)
    requires x <= y
    ensures Round3(x) <= Round3(y)
  {
    var fx, fy := (x * 1000.0).Floor, (y * 1000.0).Floor;
    assert fx <= fy;
    var nx, ny := RoundedThousandths(x), RoundedThousandths(y);
    assert fx <= nx <= fx + 1 && fy <= ny <= fy + 1;
    if fx == fy {
      assert x * 1000.0 - fx as real <= y * 1000.0 - fy as real;
    }
    assert nx <= ny;
  }

  /** Rounding commutes with negation (the midpoint rule is symmetric). */
  lemma RoundOdd(x: real)
    ensures Round3(-x) == -Round3(x)
  {
    var y := x * 1000.0;
    var f := y.Floor;
    var g := (-x * 1000.0).Floor;
    if f as real == y {
      assert g == -f;
      assert RoundedThousandths(-x) == -RoundedThousandths(x);
    } else {
      assert g == -f - 1;
      assert -x * 1000.0 - g as real == 1.0 - (y - f as real);
      assert (-f - 1) % 2 == 0 <==> f % 2 != 0;
      assert RoundedThousandths(-x) == -RoundedThousandths(x);
    }
  }

  /** A draw from [0, 1) rounds into [0, 1]. */
  lemma RoundUnitDraw(x: real)
    requires 0.0 <= x < 1.0
    ensures 0.0 <= Round3(x) <= 1.0
  {
  }
}

=== FILE: utils.dfy ===
/**
  The scalar helpers of `Utils`: weight/bias initialization and the
  leaky-ReLU activation function.

  The process-wide `System.Random` that `InitializeWeightOrBias` draws from is
  modelled as a stream of doubles in [0, 1) with a read position; every
  function that draws takes the stream and returns it advanced.
 */
module Utils {
  import opened Rounding

  /** A value `Random.NextDouble()` can return. */
  type Draw = r: real | 0.0 <= r < 1.0

  /** The shared random source: the `pos`-th and later doubles of `draw` are still to come. */
  datatype Rng = Rng(draw: nat -> Draw, pos: nat) {
    /** The double the next `NextDouble()` call returns, `k` calls ahead. */
    function Peek(k: nat): Draw {
      draw(pos + k)
    }

    /** The source after `k` further draws. */
    function Skip(k: nat): (r: Rng)
      ensures r.pos == pos + k
      ensures forall j: nat :: r.Peek(j) == Peek(k + j)
    {
      Rng(draw, pos + k)
    }
  }

  /**
    `InitializeWeightOrBias(value)`: a nonzero value is kept and nothing is
    drawn; zero is replaced by a fresh draw from [0, 1), negated when a second
    draw exceeds 0.75, then rounded to three decimals.
   */
  function InitializeWeightOrBias(value: real, rng: Rng): (r: (real, Rng))
    ensures value != 0.0 ==> r.0 == value && r.1 == rng
    ensures value == 0.0 ==> r.1 == rng.Skip(2)
    ensures value == 0.0 ==> -1.0 <= r.0 <= 1.0 && IsThousandths(r.0)
    ensures value == 0.0 ==> Abs(r.0) == Round3(rng.Peek(0))
    ensures value == 0.0 && r.0 < 0.0 ==> rng.Peek(1) > 0.75
    ensures value == 0.0 && rng.Peek(1) > 0.75 ==> r.0 == -Round3(rng.Peek(0))
    ensures value == 0.0 && rng.Peek(1) <= 0.75 ==> r.0 == Round3(rng.Peek(0))
  {
    if value != 0.0 then
      (value, rng)
    else
      var magnitude: real := rng.Peek(0);
      var coin := rng.Peek(1);
      var signed: real := if coin > 0.75 then -magnitude else magnitude;
      RoundUnitDraw(magnitude);
      RoundOdd(magnitude);
      (Round3(signed), rng.Skip(2))
  }

  /**
    The activation function: the value is rounded to three decimals; a
    positive result is returned as it is, any other is scaled by 0.1.
   */
  function LeakyRelu(x: real): (r: real)
    ensures r > 0.0 <==> x > 0.0005
    ensures r < 0.0 <==> x < -0.0005
    ensures r > 0.0 ==> r == Round3(x)
    ensures r <= 0.0 ==> r * 10.0 == Round3(x)
  {
    var v := Round3(x);
    RoundPositiveIff(x);
    RoundNegativeIff(x);
    if v > 0.0 then v else v * 0.1
  }

  /** The activation function never reverses the order of two inputs. */
  lemma LeakyReluMonotone(x: real, y: real)
    requires x <= y
    ensures LeakyRelu(x) <= LeakyRelu(y)
  {
    RoundMonotone(x, y);
  }
}

=== FILE: wiring.dfy ===
/**
  The wiring loop `Network.Generate` and `Network.GenerateLayer` run for each
  new node: every node of the previous layer is connected to it, in layer
  order, and each connection gets a freshly drawn weight.
 */
module Wiring {
  import opened Utils
  import opened Graph
  import opened Nodes

  /** The edge indices `a`, `a + 1`, ..., `a + n - 1`. */
  function Range(a: nat, n: nat): (s: seq<nat>)
    ensures |s| == n
    ensures forall i | 0 <= i < n :: s[i] == a + i
  {
    seq(n, i requires 0 <= i < n => a + i)
  }

  /** Every bias and every weight lies in [-1, 1], as `InitializeWeightOrBias` draws them. */
  ghost predicate Bounded(net: Network) {
    && (forall id | id in net.nodes :: -1.0 <= net.nodes[id].bias <= 1.0)
    && (forall e | 0 <= e < |net.edges| :: -1.0 <= net.edges[e].weight <= 1.0)
  }

  /**
    `n` is `net` after wiring each of `sources`, in order, to `target`: one new
    edge per source, appended to the edge sequence and to the in-list of
    `target`. No other in-list changes, no out-list of a node outside
    `sources` changes, and no id, bias or activation changes.
   */
  ghost predicate Wired(net: Network, n: Network, sources: seq<Id>, target: Id) {
    && target in net.nodes
    && n.nodes.Keys == net.nodes.Keys
    && NewEdges(net.edges, n.edges, sources, target)
    && n.nodes[target].ins == net.nodes[target].ins + Range(|net.edges|, |sources|)
    && (forall x | x in net.nodes && x != target :: n.nodes[x].ins == net.nodes[x].ins)
    && (forall x | x in net.nodes && x !in sources :: n.nodes[x].outs == net.nodes[x].outs)
    && (forall x | x in net.nodes :: n.nodes[x].bias == net.nodes[x].bias)
    && (forall x | x in net.nodes :: n.nodes[x].activation == net.nodes[x].activation)
    && (forall x | x in net.nodes :: n.nodes[x].id == net.nodes[x].id)
    && n.inputNodes == net.inputNodes
    && n.outputNodes == net.outputNodes
    && n.layers == net.layers
  }

  /** `edges` extends `before` by one edge from each of `sources`, in order, to `target`, each weight in [-1, 1]. */
  ghost predicate NewEdges(before: seq<Connection>, edges: seq<Connection>, sources: seq<Id>, target: Id) {
    && |edges| == |before| + |sources|
    && edges[..|before|] == before
    && (forall k | 0 <= k < |sources| ::
          && edges[|before| + k].from == sources[k]
          && edges[|before| + k].to == target
          && -1.0 <= edges[|before| + k].weight <= 1.0)
  }

  /**
    The weight one zero-weight `Connect` gives its edge, drawn once by
    `Connect` and once more by the `Connection` constructor (which draws
    again only if the first draw rounded to zero), and the stream after both.
   */
  function ConnectDraw(rng: Rng): (r: (real, Rng))
    ensures -1.0 <= r.0 <= 1.0
    ensures var (w, s) := InitializeWeightOrBias(0.0, rng);
      && (w != 0.0 ==> r == (w, rng.Skip(2)))
      && (w == 0.0 ==> r == InitializeWeightOrBias(0.0, rng.Skip(2)))
  {
    var (w, s) := InitializeWeightOrBias(0.0, rng);
    InitializeWeightOrBias(w, s)
  }

  /**
    One step of the wiring loop: with `discarding`, the thrown-away
    `Connection` first consumes its two draws; then `Connect` draws the weight.
   */
  function WireDraw(discarding: bool, rng: Rng): (r: (real, Rng))
    ensures -1.0 <= r.0 <= 1.0
    ensures !discarding ==> r == ConnectDraw(rng)
    ensures discarding ==> r == ConnectDraw(rng.Skip(2))
  {
    ConnectDraw(if discarding then InitializeWeightOrBias(0.0, rng).1 else rng)
  }

  /**
    The weights of `edges` are, in order, those successive wiring steps draw
    from `rng`, and `rest` is the stream after the last of them.
   */
  ghost predicate DrawnWeights(edges: seq<Connection>, discarding: bool, rng: Rng, rest: Rng)
    decreases |edges|
  {
    if |edges| == 0 then rest == rng
    else
      var (w, s) := WireDraw(discarding, rng);
      edges[0].weight == w && DrawnWeights(edges[1..], discarding, s, rest)
  }

  /**
    The stream fixes the weights: two wirings of the same number of edges
    from the same stream draw the same weights and leave the same stream.
   */
  lemma {:induction false} DrawnWeightsUnique(a: seq<Connection>, b: seq<Connection>, discarding: bool, rng: Rng, ra: Rng, rb: Rng)
    requires |a| == |b|
    requires DrawnWeights(a, discarding, rng, ra) && DrawnWeights(b, discarding, rng, rb)
    ensures forall i | 0 <= i < |a| :: a[i].weight == b[i].weight
    ensures ra == rb
    decreases |a|
  {
    if |a| > 0 {
      var (w, s) := WireDraw(discarding, rng);
      DrawnWeightsUnique(a[1..], b[1..], discarding, s, ra, rb);
      forall i | 0 <= i < |a|
        ensures a[i].weight == b[i].weight
      {
        if i > 0 {
          assert a[i] == a[1..][i - 1] && b[i] == b[1..][i - 1];
        }
      }
    }
  }

  /** A first edge drawn by one wiring step, then edges drawn by the rest. */
  lemma DrawnWeightsCons(edges: seq<Connection>, e: nat, discarding: bool, rng: Rng, s: Rng, rest: Rng)
    requires e < |edges|
    requires (edges[e].weight, s) == WireDraw(discarding, rng)
    requires DrawnWeights(edges[e + 1..], discarding, s, rest)
    ensures DrawnWeights(edges[e..], discarding, rng, rest)
  {
    assert edges[e..][1..] == edges[e + 1..];
  }

  /** Wiring no sources changes nothing. */
  lemma WiredNothing(net: Network, target: Id)
    requires target in net.nodes
    ensures Wired(net, net, [], target)
  {
    assert net.edges[..|net.edges|] == net.edges;
    assert net.nodes[target].ins + Range(|net.edges|, 0) == net.nodes[target].ins;
  }

  /** One `Connect` with a zero weight is a wiring from a single source. */
  lemma ConnectWires(net: Network, s: Id, target: Id, rng: Rng)
    requires s in net.nodes && target in net.nodes
    ensures Wired(net, Connect(net, s, target, 0.0, rng).0, [s], target)
  {
    var n := Connect(net, s, target, 0.0, rng).0;
    assert Range(|net.edges|, 1) == [|net.edges|];
  }

  /** Wiring one source and then the rest is wiring them all. */
  lemma WiredCons(net: Network, n1: Network, n2: Network, s: Id, rest: seq<Id>, target: Id)
    requires Wired(net, n1, [s], target) && Wired(n1, n2, rest, target)
    ensures Wired(net, n2, [s] + rest, target)
  {
    var e := |net.edges|;
    NewEdgesCons(net.edges, n1.edges, n2.edges, s, rest, target);
    var a := net.nodes[target].ins;
    calc {
      n2.nodes[target].ins;
      (a + Range(e, 1)) + Range(e + 1, |rest|);
      a + (Range(e, 1) + Range(e + 1, |rest|));
      { assert Range(e, 1) + Range(e + 1, |rest|) == Range(e, 1 + |rest|); }
      a + Range(e, 1 + |rest|);
    }
  }

  /** One new edge and then the rest are all the new edges. */
  lemma NewEdgesCons(e0: seq<Connection>, e1: seq<Connection>, e2: seq<Connection>, s: Id, rest: seq<Id>, target: Id)
    requires NewEdges(e0, e1, [s], target) && NewEdges(e1, e2, rest, target)
    ensures NewEdges(e0, e2, [s] + rest, target)
  {
    var e := |e0|;
    assert e2[..e] == e2[..e + 1][..e];
    assert e1[e + 0].from == [s][0];
    forall k | 0 <= k < 1 + |rest|
      ensures && e2[e + k].from == ([s] + rest)[k]
              && e2[e + k].to == target
              && -1.0 <= e2[e + k].weight <= 1.0
    {
      if k == 0 {
        assert e2[e] == e2[..e + 1][e] == e1[e];
      } else {
        assert ([s] + rest)[k] == rest[k - 1];
        assert e2[e + k] == e2[|e1| + (k - 1)];
      }
    }
  }

  /** Wiring adds only edges whose weights lie in [-1, 1]. */
  lemma WiredKeepsBounded(net: Network, n: Network, sources: seq<Id>, target: Id)
    requires Wired(net, n, sources, target) && Bounded(net)
    ensures Bounded(n)
  {
    var e := |net.edges|;
    forall f | 0 <= f < |n.edges|
      ensures -1.0 <= n.edges[f].weight <= 1.0
    {
      if f < e {
        assert n.edges[f] == n.edges[..e][f];
      } else {
        var k := f - e;
        assert n.edges[e + k].from == sources[k];
      }
    }
  }

  /** One step of `ConnectFrom`: the first `Connect` followed by the wiring of the rest. */
  lemma ConnectFromStep(net: Network, n2: Network, sources: seq<Id>, target: Id, rng: Rng)
    requires target in net.nodes && |sources| > 0
    requires forall k | 0 <= k < |sources| :: sources[k] in net.nodes
    requires Wired(Connect(net, sources[0], target, 0.0, rng).0, n2, sources[1..], target)
    ensures Wired(net, n2, sources, target)
  {
    var n1 := Connect(net, sources[0], target, 0.0, rng).0;
    ConnectWires(net, sources[0], target, rng);
    WiredCons(net, n1, n2, sources[0], sources[1..], target);
    assert [sources[0]] + sources[1..] == sources;
  }

  /**
    `foreach (Node node in sources) node.Connect(target)`, with a zero weight
    each time. On the output layer (`discarding`) each step first builds a
    `Connection` that is thrown away; it only advances the random stream by
    the two draws of its weight.
   */
  function ConnectFrom(net: Network, sources: seq<Id>, target: Id, discarding: bool, rng: Rng): (r: (Network, Rng))
    requires target in net.nodes
    requires forall k | 0 <= k < |sources| :: sources[k] in net.nodes
    ensures Wired(net, r.0, sources, target)
    ensures DrawnWeights(r.0.edges[|net.edges|..], discarding, rng, r.1)
    ensures Consistent(net) ==> Consistent(r.0)
    decreases |sources|
  {
    if |sources| == 0 then
      WiredNothing(net, target);
      (net, rng)
    else
      var rng1 := if discarding then InitializeWeightOrBias(0.0, rng).1 else rng;
      var step := Connect(net, sources[0], target, 0.0, rng1);
      var rest := ConnectFrom(step.0, sources[1..], target, discarding, step.1);
      ConnectFromStep(net, rest.0, sources, target, rng1);
      ConnectFromDraws(net.edges, step.0.edges, rest.0.edges, discarding, rng, step.1, rest.1);
      rest
  }

  /** The first `Connect` of `ConnectFrom` draws the first new weight; the rest draw the others. */
  lemma ConnectFromDraws(e0: seq<Connection>, e1: seq<Connection>, e2: seq<Connection>, discarding: bool, rng: Rng, s: Rng, rest: Rng)
    requires |e1| == |e0| + 1 && |e1| <= |e2| && e2[..|e1|] == e1
    requires (e1[|e0|].weight, s) == WireDraw(discarding, rng)
    requires DrawnWeights(e2[|e1|..], discarding, s, rest)
    ensures DrawnWeights(e2[|e0|..], discarding, rng, rest)
  {
    assert e2[|e0|] == e2[..|e1|][|e0|];
    DrawnWeightsCons(e2, |e0|, discarding, rng, s, rest);
  }
}
